=== FILE: README.md ===
# osinttool core, modelled in Dafny

osinttool is a defensive OSINT monitor. It fetches items from sources: an RSS feed, a static HTML page, or an allowlisted onion URL reached through a Tor SOCKS proxy. For each item it:

- matches configured keywords and regular expressions against the text;
- extracts indicators of compromise (IPv4 addresses, domains, e-mail addresses, MD5/SHA-256 hashes, Bitcoin addresses);
- records an *evidence* row in a store;
- alerts by webhook and/or e-mail on a hit.

The evidence rows form a hash chain: every row carries the hash of the row before it (`prev_hash`) and a SHA-256 of its own canonical-JSON payload (`evidence_hash`). A row is unique by `(source, origin, content_hash)`.

This project models that core as pure functions over immutable data:

| module | file | models |
|---|---|---|
| `Wrappers` | `wrappers.dfy` | `Option` / `Result` |
| `Json` | `json.dfy` | the YAML/JSON value tree, Python truthiness, `x or d`, `dict.get` |
| `Seqs` | `seqs.dfy` | order-preserving filter (the list comprehensions and append loops) |
| `Text` | `text.dfy` | `utils/text.py`: `normalize_text`, `find_matches`, `make_snippet`, `str.strip` |
| `Ioc` | `ioc.dfy` | `enrich/ioc.py`: the six patterns, `extract_iocs`, `sorted(set(...))` |
| `Evidence` | `evidence.dfy` | `db.py`: the two tables, the hash payload, `upsert_evidence`, the chain |
| `Sources` | `sources.dfy` | `sources/base.py`, `rss.py`, `http.py`, `onion.py`: requests, renewal, items |
| `Config` | `config.dfy` | `config.py`: placeholders, `resolve`, `int()`, `load_config` defaults |
| `Pipeline` | `pipeline.dfy` | `cli.py`: `_alert` and `_process_source` |

Everything the core delegates to a library or the operating system is a function-typed parameter, with no assumption about it. This covers:

- the regular-expression engine (`re.search`, `re.findall`);
- SHA-256 of the content;
- the canonical-JSON digest of the hash payload;
- `extract_domain`, `dns_lookup` and `whois_lookup`;
- `redact_text`;
- the wall clock (`datetime.now`);
- HTTP(S) transport, already parsed into feed entries or page title and text;
- the Tor control port and whether `stem` is installed;
- `send_webhook` and `send_email`.

Python exceptions that end an operation are `Result` errors:

- `raise_for_status` and transport errors are `FetchError`;
- a configuration section that is not a mapping, or a bad `int()`, is `ConfigError`;
- an alerts section that is not a mapping is `ConfigError` too (`NotAMapping`), raised while loading;
- a truthy `webhook` or `smtp` setting inside alerts that is not a mapping is `AlertError`, raised by `_alert`.

Exceptions the code catches and logs are outcomes of their own: `FailedAndLogged`, `RenewalFailed`, and a skipped invalid pattern.

Where the code and its description differ, the model follows the code:

- `raise_for_status` rejects only statuses 400 to 599, not every non-2xx status.
- For a normalised text longer than `max_chars`, `make_snippet` returns more than `max_chars` characters when `max_chars < 3`, because `t[:max_chars - 3]` then slices from the end.
- An `app`, `matching` or `alerts` section present as `null` is not replaced by its default: `.get` on `None` raises. A `null` `sources` section does become `{}`, through `or {}`.
- `_process_source` never passes `content_text`, so a pass never writes content history.

## Model

| member | source | states |
|---|---|---|
| Text.Strip | osinttool/utils/text.py:9 | `str.strip()`: the result is a contiguous slice of the input whose first and last characters are not Python whitespace, and it holds only characters of the input |
| Text.NormalizeText | osinttool/utils/text.py:5-9 | `None` gives `""`; the result has no NUL; its ends are not whitespace; it is the NUL-free input with only whitespace removed from its two ends |
| Text.NormalizeIdempotent | osinttool/utils/text.py:5-9 | normalising a normalised text changes nothing |
| Text.FindMatches | osinttool/utils/text.py:12-34 | keyword hits and pattern hits are each a subsequence of the input list, in input order. An entry occurs as often as in the input exactly when it hits (non-empty, and a case-insensitive substring or a compiling pattern that matches), otherwise not at all. An empty keyword or pattern never hits |
| Text.InvalidPatternSkipped | osinttool/utils/text.py:24-32 | a pattern that fails to compile is skipped: the result is that of the list without it |
| Text.KeywordExample | osinttool/utils/text.py:17-21 | with keywords `exploit` and `backdoor`, "Exploit detected in CVE" hits `exploit` only |
| Text.MakeSnippet | osinttool/utils/text.py:37-42 | a normalised text within the budget is returned whole. With a budget of at least 3, a longer one is cut to `budget - 3` characters plus `...`, exactly `budget` long. With a budget of at least 3 the snippet never exceeds it, and no snippet holds NUL |
| Text.PrefixSlice | osinttool/utils/text.py:42 | Python's `s[:k]`: a prefix of `s`, of length `k` capped at `|s|` for `k >= 0`, and of length `|s| + k` (at least 0) for negative `k` |
| Text.SnippetOverrunsBelowThree | osinttool/utils/text.py:40-42 | with a budget below 3, an over-long text gives a snippet longer than the budget |
| Text.SnippetZeroBudgetExample | osinttool/utils/text.py:40-42 | `make_snippet("abcd", 0)` is `"a..."` (the negative slice keeps all but the last 3 characters) |
| Ioc.SortedSet | osinttool/enrich/ioc.py:33 | `sorted(set(xs))` is strictly ascending in Python string order and holds exactly the elements of `xs` |
| Ioc.AscendingUnique | osinttool/enrich/ioc.py:33 | two strictly ascending lists with the same elements are equal |
| Ioc.PatternTable | osinttool/enrich/ioc.py:6-13 | the six pattern kinds are distinct and are exactly ipv4, domain, email, md5, sha256, btc |
| Ioc.Collect | osinttool/enrich/ioc.py:29-34 | over a table with distinct kinds, a kind is a key exactly when its pattern found something, and then maps to the sorted distinct hits. No other keys appear |
| Ioc.ExtractIocs | osinttool/enrich/ioc.py:16-34 | keys are among the six kinds. A kind is present exactly when `findall` on the text (`""` for `None`) found a hit, and then holds a non-empty, strictly ascending list of exactly the distinct hits |
| Ioc.ExtractIocsIsSortedSet | osinttool/enrich/ioc.py:31-33 | any strictly ascending list of the same hits equals the stored list, so it is `sorted(set(hits))` |
| Evidence.MissingCollectionsHashAsEmpty | osinttool/db.py:79-81 | missing keyword, regex and extra collections hash the same as empty ones |
| Evidence.PayloadShape | osinttool/db.py:70-82 | the hashed payload of a row is a mapping with exactly the eleven keys `v`, `source`, `origin`, `title`, `observed_at`, `content_hash`, `prev_hash`, `snippet`, `keywords`, `regexes`, `extra`, with `v` = 1 and `extra` the row's extra |
| Evidence.PayloadDeterminesRow | osinttool/db.py:58-82 | two rows with the same payload agree on every hashed field (empty and missing keyword and regex lists aside), so the payload omits nothing the hash is meant to cover |
| Evidence.Upsert | osinttool/db.py:96-160 | it inserts exactly when no stored row has the same (source, origin, content_hash). When it does not, the store is unchanged. When it does, exactly one row is appended with the request's fields, `extra or {}`, `prev_hash` equal to the last row's hash (`None` on an empty table) and its own payload hash. A history row is appended exactly when it inserts and content text is given |
| Evidence.UpsertPreservesChain | osinttool/db.py:120-145 | every upsert keeps the hash chain valid |
| Evidence.AppendPreservesChain | osinttool/db.py:120-147 | appending a row that links to the last hash and carries its own payload hash keeps a valid chain valid |
| Evidence.UpsertPreservesUnique | osinttool/db.py:112-118 | every upsert keeps (source, origin, content_hash) unique, as the unique constraint demands |
| Evidence.UpsertIdempotent | osinttool/db.py:112-118 | upserting the same request twice: the second call returns false and changes neither table, whatever the clock says |
| Evidence.VerifyChain | osinttool/db.py:120-145 | recomputing the links and hashes from the first row succeeds exactly when the chain is valid |
| Sources.RequestOf | osinttool/sources/onion.py:65-66 | each fetch requests the configured URL with its timeout. An onion source routes both `http` and `https` through its SOCKS proxy; the other sources use no proxy |
| Sources.Renew | osinttool/sources/onion.py:46-60 | renewal is not attempted unless it is an onion source with `renew_circuit` set. Without `stem` it reports the missing library. Otherwise the control port is asked: renewal reports success exactly when it granted a new circuit, and a control failure is reported with its reason |
| Sources.FeedItems | osinttool/sources/rss.py:23-34 | at most one item per entry, each with a non-empty origin and extra exactly `{"feed": url}` |
| Sources.FeedItemsAreLinkedEntries | osinttool/sources/rss.py:23-34 | the items are, in order, one per entry that has a non-empty link, with the link as origin, the entry title, and `desc or title or ""` as text |
| Sources.LinklessEntrySkipped | osinttool/sources/rss.py:27-28 | an entry without a link contributes nothing |
| Sources.Fetch | osinttool/sources/onion.py:62-76 | renewal comes first. A transport failure, or a status from 400 to 599, yields an error and no items. Otherwise an RSS source yields its feed items, and an HTTP or onion source yields exactly one item (the URL, the page title or `None`, the page text) tagged `{"type": "http"}` or `{"type": "onion", "proxy": ...}`. The RSS and HTTP branches have rows of their own below |
| Sources.RssFetch | osinttool/sources/rss.py:18-34 | an RSS fetch requests the feed URL with no proxy and no renewal. A transport failure or an error status is the fetch's error; otherwise the items are exactly the feed items of the entries |
| Sources.HttpFetch | osinttool/sources/http.py:18-29 | an HTTP fetch requests the page URL with no proxy and no renewal. A transport failure or an error status is the fetch's error; otherwise the result is the single item (URL, page title, page text, `{"type": "http"}`) |
| Sources.RenewalNeverAbortsFetch | osinttool/sources/onion.py:46-67 | whatever the control library and port do, the fetched items are the same |
| Config.PlaceholderName | osinttool/config.py:10 | a recognised placeholder is exactly `${NAME}` with NAME a non-empty string over `[A-Z0-9_]` |
| Config.PlaceholderRoundTrip | osinttool/config.py:10 | every well-formed `${NAME}` is recognised with its own NAME |
| Config.ResolveEnv | osinttool/config.py:12-18 | non-strings are returned unchanged, strings stay strings, and a string whose stripped form is not a `${NAME}` placeholder is returned unchanged |
| Config.ResolveEnvChanged | osinttool/config.py:12-18 | a value that `_resolve_env` changes is a string made of whitespace, a `${NAME}` placeholder and whitespace, and it becomes the value of NAME (`""` when unset) |
| Config.PlaceholderResolves | osinttool/config.py:12-17 | a placeholder with any whitespace around it resolves to the variable's value, `""` when unset |
| Config.EmbeddedPlaceholderUnchanged | osinttool/config.py:14-18 | a placeholder preceded by any text that does not start with whitespace is not resolved |
| Config.BadNameUnchanged | osinttool/config.py:10-18 | `${name}` with a character outside `[A-Z0-9_]` is not resolved |
| Config.Resolve | osinttool/config.py:48-53 | mappings stay mappings with the same keys, each key mapping to the resolution of its original value; lists stay lists of the same length, each entry the resolution of the entry at the same position; other leaves go through `_resolve_env` |
| Config.ResolveWithoutPlaceholders | osinttool/config.py:48-53 | a tree with no placeholder leaf comes out unchanged |
| Config.PyInt | osinttool/config.py:69 | `int()` returns an integer unchanged, maps `True`/`False` to 1/0, rejects null, lists and mappings, and every rejection is `NotAnInteger` of the value |
| Config.PyIntOfString | osinttool/config.py:69 | `int()` of a string succeeds exactly when the stripped string is a numeral (ASCII digits with single underscores between digits), optionally after a `+` or `-` sign |
| Config.DigitsAccepts | osinttool/config.py:69 | the digit reader yields a value exactly for numerals: non-empty, starting and ending with a digit, every underscore single and between two digits |
| Config.PyIntOfNumeral | osinttool/config.py:69 | `int()` of the decimal numeral of n is n |
| Config.LoadConfig | osinttool/config.py:43-76 | loading succeeds exactly when the document is a mapping (or empty), the app, matching and alerts sections are mappings, and `max_snippet_chars` converts with `int()`. The lists, sources, webhook and smtp settings are truthy or their empty default |
| Config.EmptyDocumentDefaults | osinttool/config.py:46-76 | an empty or null document yields `evidence.sqlite`, `INFO`, empty keyword and regex lists, snippet budget 280 and empty sources and alert settings |
| Config.LoadConfigDefaults | osinttool/config.py:61-71 | each missing `db_path`, `log_level` and `max_snippet_chars` takes its default and each given one is kept (`max_snippet_chars` through `int()`). A missing or falsy keyword, regex or sources setting becomes empty and a truthy one is kept |
| Config.AlertChannelDefaults | osinttool/config.py:59-75 | the webhook and smtp settings are read from the resolved alerts section: a missing or falsy one becomes `{}`, a truthy one is kept as resolved |
| Config.OnlyAlertsResolved | osinttool/config.py:55-75 | the environment affects only the alerts section: success and the app, matching and sources settings do not depend on it |
| Config.AlertsWithoutPlaceholders | osinttool/config.py:59-75 | an alerts section without placeholders is taken as written |
| Config.NestedPlaceholderResolves | osinttool/config.py:48-75 | a placeholder (with whitespace around it) nested as a field of the webhook or smtp settings appears in the loaded alerts configuration as the environment value |
| Pipeline.Alert | osinttool/cli.py:29-51 | `_alert` raises exactly when the webhook or smtp setting, after `or {}`, is not a mapping. A non-mapping webhook setting raises before either channel is tried; a non-mapping smtp setting raises with SMTP not tried (the webhook outcome stands) |
| Pipeline.EmailOf | osinttool/cli.py:40-48 | the `send_email` arguments exist exactly when `host`, `username`, `password` and `from_addr` are present and `int()` of the port (default 587) succeeds. They then carry those settings, that port, `to_addrs` (default `[]`), the subject and the event |
| Pipeline.Subject | osinttool/cli.py:47 | the subject is `[OSINT HIT] <source> :: ` followed by the title, or the origin when the title is missing or empty |
| Pipeline.WebhookGating | osinttool/cli.py:31-36 | whenever the webhook setting is a mapping (even if the smtp setting then raises), the webhook is tried exactly when `enabled` and `url` are truthy, and a wanted webhook is delivered exactly when `send_webhook` accepts the configured url and the event |
| Pipeline.SmtpGating | osinttool/cli.py:37-50 | with both settings mappings, SMTP is tried exactly when `enabled` is truthy, and wanted SMTP is delivered exactly when the `send_email` arguments could be built and `send_email` accepts them |
| Pipeline.AlertChannelsIsolated | osinttool/cli.py:32-51 | a webhook failure never changes what happens on SMTP, and the other way round |
| Pipeline.ItemExtra | osinttool/cli.py:64-72 | the item's own extra entries are kept unless overridden. `dns` and `whois` are added exactly when the domain is present, non-empty and not `.onion`. `iocs` is added exactly when extraction found something |
| Pipeline.Analyze | osinttool/cli.py:59-83 | each upsert is keyed by the source's name, the item's origin and `sha256_text` of the item's text, carries the item's title, the snippet, the keyword and pattern hits, and no content text |
| Pipeline.AnalyzeUsesItemText | osinttool/cli.py:59-72 | the hits are `find_matches` of the item's text with the configured keywords and patterns, the indicators are `extract_iocs` of the text, the snippet is `make_snippet` of the text with the configured budget, and the stored extra is the item's extra with dns, whois and iocs added |
| Pipeline.SameTextSameKey | osinttool/cli.py:61-83 | two items of one source with the same origin and text upsert under the same (source, origin, content_hash) key |
| Pipeline.ItemStep | osinttool/cli.py:86-97 | an alert event is produced exactly on a keyword, pattern or indicator hit, carrying the hits and the redacted snippet |
| Pipeline.ProcessItems | osinttool/cli.py:57-100 | never more records than items; one record per item when nothing raised; when something raised, it is an alert error and at least one item was recorded |
| Pipeline.ProcessItemsRecords | osinttool/cli.py:57-97 | the k-th record is the k-th item's analysis, with an alert exactly on a hit, whose event carries the source name, the item's origin and title, the hits and the redacted snippet, dispatched through `_alert` |
| Pipeline.ProcessItemsStops | osinttool/cli.py:86-100 | every record before the last continued; with no failure every record continued; on a failure the last record's alert raised, and the failure is that alert's error |
| Pipeline.ProcessItemsIsReplay | osinttool/cli.py:57-83 | the store after the loop is the store the recorded upserts, replayed in order, produce |
| Pipeline.ProcessSource | osinttool/cli.py:54-100 | a failed fetch leaves the store untouched, records nothing and reports the fetch error. Otherwise never more records than items, one per item when nothing raised, and a raised failure is an alert error after at least one record |
| Pipeline.PassRecords | osinttool/cli.py:54-100 | after a successful fetch the k-th record is that of the k-th item, analysed with the configured settings and alerted through `_alert` exactly on a hit; the pass stops exactly after the first alert that raised, reporting that alert's error |
| Pipeline.PassRequests | osinttool/cli.py:74-83 | every upsert of a pass carries the source's name and the item's origin and title, and no content text |
| Pipeline.PassIsReplay | osinttool/cli.py:56-83 | a pass changes the store only through its upserts, one per recorded item, in order |
| Pipeline.ReplayPreservesInvariants | osinttool/cli.py:57-83 | replaying any upserts keeps the chain valid and the keys unique |
| Pipeline.ReplayWithoutTextKeepsHistory | osinttool/db.py:148-158 | replaying upserts none of which carries content text leaves the history table unchanged |
| Pipeline.PassPreservesStore | osinttool/cli.py:54-83 | a pass keeps the evidence chain valid and unique, and never writes content history |

## Left out

- HTML and XML parsing (BeautifulSoup): a response arrives already parsed into feed entries, page title and page text.
- `RateLimitedSession` rate limiting and retries (`utils/requests.py`): the transport is a single function from request to response or failure.
- The database engine, sessions, transactions and concurrent writers: the store is a value, and each upsert is atomic.
- SHA-256, canonical JSON encoding and UTF-8 encoding: these are oracle parameters. So are the regular-expression engine, `extract_domain`, DNS, WHOIS and `redact_text`.
- Unicode case mapping: `lower()` is modelled on ASCII letters only.
- `time.sleep` after NEWNYM and the log lines: they have no effect on the result.
- `scheduler.py`, `run_once`, `run_daemon`, `show_recent`, `main`, argument parsing, `api_server.py`, the frontend, `enrich/diff.py` and the alert backends' HTTP/SMTP code: these are outside the core.
- YAML parsing and floating-point values: the configuration arrives as a value tree of null, bools, integers, strings, lists and mappings.
- Evidence.VerifyChain: the observed time is kept as the ISO string that was hashed. db.py stores a timezone-aware datetime and hashes its `isoformat()`; whether reading the column back gives the same string (SQLite may drop the offset) is not modelled.
- The default timeouts of the source constructors (15, 20 and 30 seconds) and the default Tor control port 9051: a source carries its timeout and port as fields.
- Config.PyInt: does not model `int()` on Unicode digits other than ASCII, nor on floats.
- Pipeline.Alert: `list(to_addrs)` and `str(event)` are not modelled. The recipients are passed as the configured value and the event itself stands for the body.
- Pipeline.ProcessSource: keyword and regex settings are taken as string lists. A configuration whose lists hold non-strings, which makes `find_matches` raise, is not modelled.
- Text.FindMatches: text is a string. `find_matches` reads `None` as `""` and then passes `None` on to `re.search`, which raises; that path is not modelled.

=== FILE: config.dfy ===
/** Configuration resolution (osinttool/config.py), starting from the tree
    YAML loading produced: `${NAME}` placeholders in the alerts section are
    replaced from the environment, and missing settings get defaults. */
module Config {
  import opened Wrappers
  import Json
  import Text

  predicate IsNameChar(c: char) {
    'A' <= c <= 'Z' || '0' <= c <= '9' || c == '_'
  }

  /** `_ENV_RX.match(s)`: the NAME of a string that is exactly `${NAME}`
      with NAME in `[A-Z0-9_]+`. */
  function PlaceholderName(s: string): (name: Option<string>)
    ensures name.Some? ==>
              && s == "${" + name.value + "}"
              && name.value != []
              && forall c :: c in name.value ==> IsNameChar(c)
  {
    if |s| >= 4 && s[0] == '$' && s[1] == '{' && s[|s| - 1] == '}'
       && forall i :: 2 <= i < |s| - 1 ==> IsNameChar(s[i])
    then
      assert s == "${" + s[2..|s| - 1] + "}";
      Some(s[2..|s| - 1])
    else None
  }

  /** Every well-formed placeholder is recognised, with its own name. */
  lemma PlaceholderRoundTrip(name: string)
    requires name != [] && forall c :: c in name ==> IsNameChar(c)
    ensures PlaceholderName("${" + name + "}") == Some(name)
  {
    var s := "${" + name + "}";
    assert s[2..|s| - 1] == name;
    forall i | 2 <= i < |s| - 1 ensures IsNameChar(s[i]) {
      assert s[i] == name[i - 2];
    }
  }

  /** `os.getenv(name, "")`. */
  function GetEnv(env: map<string, string>, name: string): string {
    if name in env then env[name] else ""
  }

  /** _resolve_env: a string whose stripped form is a placeholder becomes
      the variable's value; everything else is returned unchanged. */
  function ResolveEnv(v: Json.Value, env: map<string, string>): (r: Json.Value)
    ensures !v.Str? ==> r == v
    ensures v.Str? ==> r.Str?
    ensures v.Str? && PlaceholderName(Text.Strip(v.s)).None? ==> r == v
  {
    if v.Str? then
      match PlaceholderName(Text.Strip(v.s))
      case Some(name) => Json.Str(GetEnv(env, name))
      case None => v
    else v
  }

  /** A string that _resolve_env changes is a placeholder framed by nothing
      but whitespace, and it becomes that variable's value. */
  lemma ResolveEnvChanged(v: Json.Value, env: map<string, string>)
    requires ResolveEnv(v, env) != v
    ensures v.Str?
    ensures exists i, j ::
              && 0 <= i <= j <= |v.s|
              && (forall k :: 0 <= k < i ==> Text.IsSpace(v.s[k]))
              && (forall k :: j <= k < |v.s| ==> Text.IsSpace(v.s[k]))
              && PlaceholderName(v.s[i..j]).Some?
              && ResolveEnv(v, env) == Json.Str(GetEnv(env, PlaceholderName(v.s[i..j]).value))
  {
    var t := Text.Strip(v.s);
    var i, j :| && 0 <= i <= j <= |v.s| && t == v.s[i..j]
                && (forall k :: 0 <= k < i ==> Text.IsSpace(v.s[k]))
                && (forall k :: j <= k < |v.s| ==> Text.IsSpace(v.s[k]));
    assert PlaceholderName(v.s[i..j]).Some?;
  }

  /** A placeholder, with any whitespace around it, resolves to the
      environment value (empty when unset). */
  lemma PlaceholderResolves(pre: string, name: string, post: string, env: map<string, string>)
    requires forall c :: c in pre ==> Text.IsSpace(c)
    requires forall c :: c in post ==> Text.IsSpace(c)
    requires name != [] && forall c :: c in name ==> IsNameChar(c)
    ensures ResolveEnv(Json.Str(pre + "${" + name + "}" + post), env) == Json.Str(GetEnv(env, name))
  {
    var core := "${" + name + "}";
    assert core[0] == '$' && core[|core| - 1] == '}';
    assert pre + "${" + name + "}" + post == pre + core + post;
    Text.StripFramed(pre, core, post);
    PlaceholderRoundTrip(name);
  }

  /** A placeholder embedded after other text is left as it is. */
  lemma EmbeddedPlaceholderUnchanged(pre: string, name: string, env: map<string, string>)
    requires pre != [] && !Text.IsSpace(pre[0])
    ensures ResolveEnv(Json.Str(pre + "${" + name + "}"), env) == Json.Str(pre + "${" + name + "}")
  {
    var s := pre + "${" + name + "}";
    assert s[0] == pre[0];
    assert Text.SpanStart(s) == 0;
    assert Text.SpanEnd(s) == |s|;
    assert Text.Strip(s) == s[0..|s|] == s;
    if pre[0] == '$' {
      if |pre| == 1 {
        assert s[1] == '$';
      } else if pre[1] == '{' {
        assert s[|pre|] == '$' && 2 <= |pre| < |s| - 1;
      } else {
        assert s[1] == pre[1];
      }
    }
  }

  /** A name outside `[A-Z0-9_]` (a lower-case one, say) is not a placeholder. */
  lemma BadNameUnchanged(name: string, env: map<string, string>)
    requires exists c :: c in name && !IsNameChar(c)
    ensures ResolveEnv(Json.Str("${" + name + "}"), env) == Json.Str("${" + name + "}")
  {
    var s := "${" + name + "}";
    assert Text.SpanStart(s) == 0;
    assert Text.SpanEnd(s) == |s|;
    assert Text.Strip(s) == s[0..|s|] == s;
    var c :| c in name && !IsNameChar(c);
    var k :| 0 <= k < |name| && name[k] == c;
    assert s[k + 2] == c;
  }

  /** The inner `resolve` of load_config: dictionaries and lists are rebuilt
      with the same keys and the same length and order, and _resolve_env is
      applied to the leaves. */
  function Resolve(v: Json.Value, env: map<string, string>): (r: Json.Value)
    ensures v.Object? <==> r.Object?
    ensures v.Object? ==> r.fields.Keys == v.fields.Keys
    ensures v.List? <==> r.List?
    ensures v.List? ==> |r.items| == |v.items|
    ensures v.Object? ==> forall k :: k in v.fields ==> r.fields[k] == Resolve(v.fields[k], env)
    ensures v.List? ==> forall i :: 0 <= i < |v.items| ==> r.items[i] == Resolve(v.items[i], env)
    ensures !v.Object? && !v.List? ==> r == ResolveEnv(v, env)
  {
    match v
    case Object(m) => Json.Object(map k | k in m :: Resolve(m[k], env))
    case List(xs) => Json.List(seq(|xs|, i requires 0 <= i < |xs| => Resolve(xs[i], env)))
    case _ => ResolveEnv(v, env)
  }

  /** Some leaf string of `v` is a placeholder. */
  predicate HasPlaceholder(v: Json.Value) {
    match v
    case Str(s) => PlaceholderName(Text.Strip(s)).Some?
    case List(xs) => exists i :: 0 <= i < |xs| && HasPlaceholder(xs[i])
    case Object(m) => exists k :: k in m && HasPlaceholder(m[k])
    case _ => false
  }

  /** A tree without placeholders comes out of `resolve` unchanged. */
  lemma {:induction false} ResolveWithoutPlaceholders(v: Json.Value, env: map<string, string>)
    requires !HasPlaceholder(v)
    ensures Resolve(v, env) == v
  {
    match v
    case Object(m) =>
      forall k | k in m ensures Resolve(m[k], env) == m[k] {
        ResolveWithoutPlaceholders(m[k], env);
      }
      assert (map k | k in m :: Resolve(m[k], env)) == m;
    case List(xs) =>
      forall i | 0 <= i < |xs| ensures Resolve(xs[i], env) == xs[i] {
        ResolveWithoutPlaceholders(xs[i], env);
      }
      assert seq(|xs|, i requires 0 <= i < |xs| => Resolve(xs[i], env)) == xs;
    case _ =>
  }

  function DigitValue(c: char): nat
    requires '0' <= c <= '9'
  {
    c as int - '0' as int
  }

  /** Value of a decimal numeral whose digits may be separated by single
      underscores (`1_000`), as Python's `int()` reads it. */
  function Digits(s: string): (n: Option<nat>)
    decreases |s|
  {
    if s == [] then None
    else if !('0' <= s[|s| - 1] <= '9') then None
    else if |s| == 1 then Some(DigitValue(s[0]))
    else
      var init := if s[|s| - 2] == '_' && |s| >= 3 && '0' <= s[|s| - 3] <= '9' then s[..|s| - 2] else s[..|s| - 1];
      match Digits(init)
      case None => None
      case Some(m) => Some(10 * m + DigitValue(s[|s| - 1]))
  }

  predicate IsDigit(c: char) {
    '0' <= c <= '9'
  }

  /** What `int()` accepts as a numeral: ASCII digits, possibly separated
      by single underscores, starting and ending with a digit. */
  predicate IsNumeral(s: string) {
    && s != []
    && IsDigit(s[0])
    && IsDigit(s[|s| - 1])
    && forall i :: 0 < i < |s| - 1 && !IsDigit(s[i]) ==> s[i] == '_' && IsDigit(s[i - 1]) && IsDigit(s[i + 1])
  }

  /** `Digits` reads a value exactly from the numerals. */
  lemma {:induction false} DigitsAccepts(s: string)
    ensures Digits(s).Some? <==> IsNumeral(s)
    decreases |s|
  {
    if s == [] || !IsDigit(s[|s| - 1]) || |s| == 1 {
    } else if s[|s| - 2] == '_' && |s| >= 3 && IsDigit(s[|s| - 3]) {
      DigitsAccepts(s[..|s| - 2]);
      NumeralUnderscoreStep(s);
    } else {
      DigitsAccepts(s[..|s| - 1]);
      NumeralDigitStep(s);
    }
  }

  /** Dropping a final `_d` keeps a string a numeral, and back. */
  lemma NumeralUnderscoreStep(s: string)
    requires |s| >= 3 && IsDigit(s[|s| - 1]) && s[|s| - 2] == '_' && IsDigit(s[|s| - 3])
    ensures IsNumeral(s) <==> IsNumeral(s[..|s| - 2])
  {
    var init := s[..|s| - 2];
    if IsNumeral(init) {
      forall i | 0 < i < |s| - 1 && !IsDigit(s[i])
        ensures s[i] == '_' && IsDigit(s[i - 1]) && IsDigit(s[i + 1])
      {
        if i < |s| - 2 {
          assert s[i] == init[i] && s[i - 1] == init[i - 1];
          assert i < |init| - 1;
          assert s[i + 1] == init[i + 1];
        }
      }
    }
    if IsNumeral(s) {
      forall i | 0 < i < |init| - 1 && !IsDigit(init[i])
        ensures init[i] == '_' && IsDigit(init[i - 1]) && IsDigit(init[i + 1])
      {
        assert init[i] == s[i] && init[i - 1] == s[i - 1] && init[i + 1] == s[i + 1];
      }
    }
  }

  /** Dropping a final digit keeps a string a numeral, and back, unless an
      underscore after a digit is left at the end. */
  lemma NumeralDigitStep(s: string)
    requires |s| >= 2 && IsDigit(s[|s| - 1])
    requires !(s[|s| - 2] == '_' && |s| >= 3 && IsDigit(s[|s| - 3]))
    ensures IsNumeral(s) <==> IsNumeral(s[..|s| - 1])
  {
    var init := s[..|s| - 1];
    if IsNumeral(init) {
      forall i | 0 < i < |s| - 1 && !IsDigit(s[i])
        ensures s[i] == '_' && IsDigit(s[i - 1]) && IsDigit(s[i + 1])
      {
        assert s[i] == init[i] && s[i - 1] == init[i - 1];
        assert i < |init| - 1;
        assert s[i + 1] == init[i + 1];
      }
    }
    if IsNumeral(s) {
      assert IsDigit(s[|s| - 2]);
      forall i | 0 < i < |init| - 1 && !IsDigit(init[i])
        ensures init[i] == '_' && IsDigit(init[i - 1]) && IsDigit(init[i + 1])
      {
        assert init[i] == s[i] && init[i - 1] == s[i - 1] && init[i + 1] == s[i + 1];
      }
    }
  }

  /** Decimal numeral of a natural number. */
  function Show(n: nat): (s: string)
    ensures s != [] && '0' <= s[|s| - 1] <= '9'
  {
    var last := (('0' as int) + n % 10) as char;
    if n < 10 then [last] else Show(n / 10) + [last]
  }

  /** `Digits` reads back what `Show` writes. */
  lemma {:induction false} DigitsShow(n: nat)
    ensures Digits(Show(n)) == Some(n)
  {
    if n >= 10 {
      DigitsShow(n / 10);
      var s := Show(n);
      assert s[..|s| - 1] == Show(n / 10);
      assert s[|s| - 2] != '_';
    }
  }

  datatype ConfigError = NotAMapping(section: string) | NotAnInteger(value: Json.Value)

  /** Python's `int(v)` for the values a YAML tree holds (floats aside). */
  function PyInt(v: Json.Value): (r: Result<int, ConfigError>)
    ensures v.Int? ==> r == Ok(v.i)
    ensures v.Bool? ==> r == Ok(if v.b then 1 else 0)
    ensures v.Null? || v.List? || v.Object? ==> r == Err(NotAnInteger(v))
    ensures r.Err? ==> r == Err(NotAnInteger(v))
  {
    match v
    case Int(i) => Ok(i)
    case Bool(b) => Ok(if b then 1 else 0)
    case Str(s) =>
      var t := Text.Strip(s);
      if t != [] && (t[0] == '-' || t[0] == '+') then
        (match Digits(t[1..])
         case Some(n) => Ok(if t[0] == '-' then -(n as int) else n)
         case None => Err(NotAnInteger(v)))
      else
        (match Digits(t)
         case Some(n) => Ok(n)
         case None => Err(NotAnInteger(v)))
    case _ => Err(NotAnInteger(v))
  }

  /** `int()` of a string succeeds exactly when, once stripped, it is a
      numeral with an optional sign. */
  lemma PyIntOfString(s: string)
    ensures var t := Text.Strip(s);
            PyInt(Json.Str(s)).Ok? <==>
              || (t != [] && (t[0] == '-' || t[0] == '+') && IsNumeral(t[1..]))
              || IsNumeral(t)
  {
    var t := Text.Strip(s);
    if t != [] && (t[0] == '-' || t[0] == '+') {
      DigitsAccepts(t[1..]);
    } else {
      DigitsAccepts(t);
    }
  }

  /** A decimal string converts to its number. */
  lemma PyIntOfNumeral(n: nat)
    ensures PyInt(Json.Str(Show(n))) == Ok(n)
  {
    var s := Show(n);
    ShowStartsWithDigit(n);
    ShowIsStripped(n);
    assert s[0] != '-' && s[0] != '+';
    DigitsShow(n);
  }

  /** A numeral has no surrounding whitespace to strip. */
  lemma ShowIsStripped(n: nat)
    ensures Text.Strip(Show(n)) == Show(n)
  {
    var s := Show(n);
    ShowStartsWithDigit(n);
    assert Text.SpanStart(s) == 0;
    assert Text.SpanEnd(s) == |s|;
    assert s[0..|s|] == s;
  }

  lemma {:induction false} ShowStartsWithDigit(n: nat)
    ensures '0' <= Show(n)[0] <= '9'
  {
    if n >= 10 {
      ShowStartsWithDigit(n / 10);
    }
  }

  datatype AppConfig = AppConfig(dbPath: Json.Value, logLevel: Json.Value)
  datatype MatchingConfig = MatchingConfig(keywords: Json.Value, regex: Json.Value, maxSnippetChars: int)
  datatype AlertsConfig = AlertsConfig(webhook: Json.Value, smtp: Json.Value)
  datatype Config = Config(app: AppConfig, matching: MatchingConfig, sources: Json.Value, alerts: AlertsConfig)

  /** The resolved webhook or smtp channel of the alerts section. */
  function Channel(a: AlertsConfig, channel: string): Json.Value {
    if channel == "webhook" then a.webhook else a.smtp
  }

  const DefaultDbPath: string := "evidence.sqlite"
  const DefaultLogLevel: string := "INFO"
  const DefaultMaxSnippetChars: int := 280

  /** The configuration an empty file yields. */
  const DefaultConfig: Config :=
    Config(AppConfig(Json.Str(DefaultDbPath), Json.Str(DefaultLogLevel)),
           MatchingConfig(Json.List([]), Json.List([]), DefaultMaxSnippetChars),
           Json.EmptyObject,
           AlertsConfig(Json.EmptyObject, Json.EmptyObject))

  /** Top-level section `name` of the loaded tree (`raw.get(name, {})`). */
  function Section(root: map<string, Json.Value>, name: string): Json.Value {
    Json.Get(root, name, Json.EmptyObject)
  }

  /** load_config after YAML parsing. The app, matching and sources
      sections are taken as written; only alerts is resolved. A section
      that is present but not a mapping (null included) raises. */
  function LoadConfig(raw: Json.Value, env: map<string, string>): (r: Result<Config, ConfigError>)
    ensures r.Ok? ==>
              var c := r.value;
              && (Json.Truthy(c.matching.keywords) || c.matching.keywords == Json.List([]))
              && (Json.Truthy(c.matching.regex) || c.matching.regex == Json.List([]))
              && (Json.Truthy(c.sources) || c.sources == Json.EmptyObject)
              && (Json.Truthy(c.alerts.webhook) || c.alerts.webhook == Json.EmptyObject)
              && (Json.Truthy(c.alerts.smtp) || c.alerts.smtp == Json.EmptyObject)
    ensures r.Ok? <==>
              var root := Json.Or(raw, Json.EmptyObject);
              && root.Object?
              && Section(root.fields, "app").Object?
              && Section(root.fields, "matching").Object?
              && PyInt(Json.Get(Section(root.fields, "matching").fields, "max_snippet_chars",
                                Json.Int(DefaultMaxSnippetChars))).Ok?
              && Section(root.fields, "alerts").Object?
  {
    var root := Json.Or(raw, Json.EmptyObject);
    if !root.Object? then Err(NotAMapping("root"))
    else
      var app := Section(root.fields, "app");
      var matching := Section(root.fields, "matching");
      var alerts := Resolve(Section(root.fields, "alerts"), env);
      if !app.Object? then Err(NotAMapping("app"))
      else if !matching.Object? then Err(NotAMapping("matching"))
      else
        match PyInt(Json.Get(matching.fields, "max_snippet_chars", Json.Int(DefaultMaxSnippetChars)))
        case Err(e) => Err(e)
        case Ok(maxChars) =>
          if !alerts.Object? then Err(NotAMapping("alerts"))
          else
            Ok(Config(
              AppConfig(Json.Get(app.fields, "db_path", Json.Str(DefaultDbPath)),
                        Json.Get(app.fields, "log_level", Json.Str(DefaultLogLevel))),
              MatchingConfig(Json.Or(Json.Get(matching.fields, "keywords", Json.List([])), Json.List([])),
                             Json.Or(Json.Get(matching.fields, "regex", Json.List([])), Json.List([])),
                             maxChars),
              Json.Or(Json.Get(root.fields, "sources", Json.EmptyObject), Json.EmptyObject),
              AlertsConfig(Json.Or(Json.Get(alerts.fields, "webhook", Json.EmptyObject), Json.EmptyObject),
                           Json.Or(Json.Get(alerts.fields, "smtp", Json.EmptyObject), Json.EmptyObject))))
  }

  /** An empty (or null) document yields every default. */
  lemma EmptyDocumentDefaults(env: map<string, string>)
    ensures LoadConfig(Json.Null, env) == Ok(DefaultConfig)
    ensures LoadConfig(Json.EmptyObject, env) == Ok(DefaultConfig)
  {
  }

  /** Each missing setting takes its default and each given one is kept;
      keyword and pattern lists that are missing or falsy (null included)
      become `[]`, and sources, webhook and smtp settings that are missing
      or falsy become `{}`. The alerts channels are read from the resolved
      alerts section. */
  lemma LoadConfigDefaults(raw: Json.Value, env: map<string, string>)
    requires raw.Object? && LoadConfig(raw, env).Ok?
    ensures var c := LoadConfig(raw, env).value;
            var app := Section(raw.fields, "app").fields;
            var m := Section(raw.fields, "matching").fields;
            && ("db_path" !in app ==> c.app.dbPath == Json.Str(DefaultDbPath))
            && ("db_path" in app ==> c.app.dbPath == app["db_path"])
            && ("log_level" !in app ==> c.app.logLevel == Json.Str(DefaultLogLevel))
            && ("log_level" in app ==> c.app.logLevel == app["log_level"])
            && ("max_snippet_chars" !in m ==> c.matching.maxSnippetChars == DefaultMaxSnippetChars)
            && ("max_snippet_chars" in m ==> PyInt(m["max_snippet_chars"]) == Ok(c.matching.maxSnippetChars))
            && (!Json.Truthy(Json.Get(m, "keywords", Json.Null)) ==> c.matching.keywords == Json.List([]))
            && (Json.Truthy(Json.Get(m, "keywords", Json.Null)) ==> c.matching.keywords == m["keywords"])
            && (!Json.Truthy(Json.Get(m, "regex", Json.Null)) ==> c.matching.regex == Json.List([]))
            && (Json.Truthy(Json.Get(m, "regex", Json.Null)) ==> c.matching.regex == m["regex"])
            && (!Json.Truthy(Json.Get(raw.fields, "sources", Json.Null)) ==> c.sources == Json.EmptyObject)
            && (Json.Truthy(Json.Get(raw.fields, "sources", Json.Null)) ==> c.sources == raw.fields["sources"])
  {
  }

  /** The webhook and smtp settings of the resolved alerts section are kept
      when truthy and become `{}` when missing or falsy (null included). */
  lemma AlertChannelDefaults(raw: Json.Value, env: map<string, string>, channel: string)
    requires channel == "webhook" || channel == "smtp"
    requires raw.Object? && LoadConfig(raw, env).Ok?
    ensures var al := Resolve(Section(raw.fields, "alerts"), env);
            var ch := Channel(LoadConfig(raw, env).value.alerts, channel);
            && al.Object?
            && (!Json.Truthy(Json.Get(al.fields, channel, Json.Null)) ==> ch == Json.EmptyObject)
            && (Json.Truthy(Json.Get(al.fields, channel, Json.Null)) ==> ch == al.fields[channel])
  {
  }

  /** Only the alerts section sees the environment: the other sections and
      whether loading succeeds do not depend on it. */
  lemma OnlyAlertsResolved(raw: Json.Value, env1: map<string, string>, env2: map<string, string>)
    ensures LoadConfig(raw, env1).Ok? <==> LoadConfig(raw, env2).Ok?
    ensures LoadConfig(raw, env1).Ok? ==>
              var c1 := LoadConfig(raw, env1).value;
              var c2 := LoadConfig(raw, env2).value;
              c1.app == c2.app && c1.matching == c2.matching && c1.sources == c2.sources
  {
  }

  /** A placeholder nested in the webhook or smtp settings (an SMTP password,
      say) reaches the loaded configuration as the environment value. */
  lemma NestedPlaceholderResolves(raw: Json.Value, env: map<string, string>, channel: string, field: string,
                                  pre: string, name: string, post: string)
    requires channel == "webhook" || channel == "smtp"
    requires raw.Object? && "alerts" in raw.fields && raw.fields["alerts"].Object?
    requires channel in raw.fields["alerts"].fields
    requires raw.fields["alerts"].fields[channel].Object?
    requires field in raw.fields["alerts"].fields[channel].fields
    requires raw.fields["alerts"].fields[channel].fields[field] == Json.Str(pre + "${" + name + "}" + post)
    requires forall c :: c in pre ==> Text.IsSpace(c)
    requires forall c :: c in post ==> Text.IsSpace(c)
    requires name != [] && forall c :: c in name ==> IsNameChar(c)
    requires LoadConfig(raw, env).Ok?
    ensures var ch := Channel(LoadConfig(raw, env).value.alerts, channel);
            ch.Object? && field in ch.fields && ch.fields[field] == Json.Str(GetEnv(env, name))
  {
    PlaceholderResolves(pre, name, post, env);
  }

  /** Alerts without placeholders are taken as written. */
  lemma AlertsWithoutPlaceholders(raw: Json.Value, env: map<string, string>)
    requires raw.Object? && "alerts" in raw.fields && !HasPlaceholder(raw.fields["alerts"])
    requires LoadConfig(raw, env).Ok?
    ensures LoadConfig(raw, env).value.alerts
         == AlertsConfig(Json.Or(Json.Get(raw.fields["alerts"].fields, "webhook", Json.EmptyObject), Json.EmptyObject),
                         Json.Or(Json.Get(raw.fields["alerts"].fields, "smtp", Json.EmptyObject), Json.EmptyObject))
  {
    ResolveWithoutPlaceholders(raw.fields["alerts"], env);
  }
}

=== FILE: evidence.dfy ===
/** The evidence store (osinttool/db.py): a deduplicating, hash-chained,
    append-only evidence table plus a content-history table. Tables are
    sequences; the id of a row is its position plus one, so "the row with
    the highest id" is the last one. */
module Evidence {
  import opened Wrappers
  import Json

  datatype EvidenceRow = EvidenceRow(
    source: string,
    origin: string,
    title: Option<string>,
    observedAt: string,
    contentHash: string,
    snippet: Option<string>,
    keywords: Option<seq<string>>,
    regexes: Option<seq<string>>,
    extra: map<string, Json.Value>,
    prevHash: Option<string>,
    evidenceHash: string)

  datatype HistoryRow = HistoryRow(
    source: string,
    origin: string,
    observedAt: string,
    contentHash: string,
    contentText: string)

  datatype Store = Store(evidence: seq<EvidenceRow>, history: seq<HistoryRow>)

  /** Canonical JSON encoding (sorted keys, no whitespace), UTF-8 encoding
      and SHA-256 hex digest, outside this model. */
  type Digest = Json.Value -> string

  function OptionalStr(o: Option<string>): Json.Value {
    if o.Some? then Json.Str(o.value) else Json.Null
  }

  /** The eleven keys of the hashed payload. */
  const PayloadKeys: set<string> :=
    {"v", "source", "origin", "title", "observed_at", "content_hash", "prev_hash", "snippet",
     "keywords", "regexes", "extra"}

  /** The payload of compute_evidence_hash. Missing keyword and pattern
      lists are written as `[]`, a missing `extra` as `{}`. */
  function HashPayload(source: string, origin: string, title: Option<string>, observedAt: string,
                       contentHash: string, prevHash: Option<string>, snippet: Option<string>,
                       keywords: Option<seq<string>>, regexes: Option<seq<string>>,
                       extra: Option<map<string, Json.Value>>): Json.Value
  {
    Json.Object(map[
      "v" := Json.Int(1),
      "source" := Json.Str(source),
      "origin" := Json.Str(origin),
      "title" := OptionalStr(title),
      "observed_at" := Json.Str(observedAt),
      "content_hash" := Json.Str(contentHash),
      "prev_hash" := OptionalStr(prevHash),
      "snippet" := OptionalStr(snippet),
      "keywords" := Json.StrList(keywords.GetOr([])),
      "regexes" := Json.StrList(regexes.GetOr([])),
      "extra" := Json.Object(extra.GetOr(map[]))
    ])
  }

  /** The payload is version 1 of a fixed eleven-key object, whatever the
      row holds. */
  lemma PayloadShape(row: EvidenceRow)
    ensures RowPayload(row).Object? && RowPayload(row).fields.Keys == PayloadKeys
    ensures RowPayload(row).fields["v"] == Json.Int(1)
    ensures RowPayload(row).fields["extra"] == Json.Object(row.extra)
  {
  }

  function ComputeEvidenceHash(digest: Digest, source: string, origin: string, title: Option<string>,
                               observedAt: string, contentHash: string, prevHash: Option<string>,
                               snippet: Option<string>, keywords: Option<seq<string>>,
                               regexes: Option<seq<string>>, extra: Option<map<string, Json.Value>>): string
  {
    digest(HashPayload(source, origin, title, observedAt, contentHash, prevHash, snippet, keywords, regexes, extra))
  }

  /** A missing collection and an empty one hash alike. */
  lemma MissingCollectionsHashAsEmpty(digest: Digest, source: string, origin: string, title: Option<string>,
                                      observedAt: string, contentHash: string, prevHash: Option<string>,
                                      snippet: Option<string>)
    ensures ComputeEvidenceHash(digest, source, origin, title, observedAt, contentHash, prevHash, snippet, None, None, None)
         == ComputeEvidenceHash(digest, source, origin, title, observedAt, contentHash, prevHash, snippet,
                                Some([]), Some([]), Some(map[]))
  {
  }

  /** The payload hashed for a stored row. */
  function RowPayload(row: EvidenceRow): Json.Value {
    HashPayload(row.source, row.origin, row.title, row.observedAt, row.contentHash,
                row.prevHash, row.snippet, row.keywords, row.regexes, Some(row.extra))
  }

  /** The hash a row must carry, recomputed from its stored fields. */
  function RowHash(digest: Digest, row: EvidenceRow): string {
    digest(RowPayload(row))
  }

  /** Tamper evidence: the payload determines every hashed field of a row,
      so two rows with different content (a missing list counting as empty)
      never share a payload, and so never share a hash for an injective
      digest. */
  lemma PayloadDeterminesRow(a: EvidenceRow, b: EvidenceRow)
    requires RowPayload(a) == RowPayload(b)
    ensures a.source == b.source && a.origin == b.origin && a.title == b.title
    ensures a.observedAt == b.observedAt && a.contentHash == b.contentHash
    ensures a.prevHash == b.prevHash && a.snippet == b.snippet && a.extra == b.extra
    ensures a.keywords.GetOr([]) == b.keywords.GetOr([]) && a.regexes.GetOr([]) == b.regexes.GetOr([])
  {
    var pa := RowPayload(a).fields;
    var pb := RowPayload(b).fields;
    assert pa["source"] == pb["source"] && pa["origin"] == pb["origin"];
    assert pa["observed_at"] == pb["observed_at"] && pa["content_hash"] == pb["content_hash"];
    assert pa["extra"] == pb["extra"];
    assert pa["title"] == pb["title"] && pa["prev_hash"] == pb["prev_hash"] && pa["snippet"] == pb["snippet"];
    assert pa["keywords"] == pb["keywords"] && pa["regexes"] == pb["regexes"];
    OptionalStrInjective(a.title, b.title);
    OptionalStrInjective(a.prevHash, b.prevHash);
    OptionalStrInjective(a.snippet, b.snippet);
    StrListInjective(a.keywords.GetOr([]), b.keywords.GetOr([]));
    StrListInjective(a.regexes.GetOr([]), b.regexes.GetOr([]));
  }

  lemma OptionalStrInjective(x: Option<string>, y: Option<string>)
    requires OptionalStr(x) == OptionalStr(y)
    ensures x == y
  {
  }

  lemma StrListInjective(xs: seq<string>, ys: seq<string>)
    requires Json.StrList(xs) == Json.StrList(ys)
    ensures xs == ys
  {
    forall i | 0 <= i < |xs| ensures xs[i] == ys[i] {
      assert Json.StrList(xs).items[i] == Json.StrList(ys).items[i];
    }
  }

  /** Row `i` links to its predecessor (nothing for the first row). */
  predicate Linked(ev: seq<EvidenceRow>, i: int)
    requires 0 <= i < |ev|
  {
    ev[i].prevHash == if i == 0 then None else Some(ev[i - 1].evidenceHash)
  }

  /** Invariant I2: every row links to the row before it and carries the
      hash of its own fields. */
  predicate ValidChain(ev: seq<EvidenceRow>, digest: Digest) {
    forall i :: 0 <= i < |ev| ==> RowOk(ev, digest, i)
  }

  /** Row `i` links to its predecessor and carries its own hash. */
  predicate RowOk(ev: seq<EvidenceRow>, digest: Digest, i: int)
    requires 0 <= i < |ev|
  {
    Linked(ev, i) && ev[i].evidenceHash == RowHash(digest, ev[i])
  }

  predicate HasKey(row: EvidenceRow, source: string, origin: string, contentHash: string) {
    row.source == source && row.origin == origin && row.contentHash == contentHash
  }

  /** Invariant I1: no two rows share (source, origin, content_hash). */
  predicate Unique(ev: seq<EvidenceRow>) {
    forall i, j :: 0 <= i < j < |ev| ==> !HasKey(ev[j], ev[i].source, ev[i].origin, ev[i].contentHash)
  }

  /** Arguments of upsert_evidence. */
  datatype UpsertRequest = UpsertRequest(
    source: string,
    origin: string,
    title: Option<string>,
    contentHash: string,
    snippet: Option<string>,
    keywords: Option<seq<string>>,
    regexes: Option<seq<string>>,
    extra: Option<map<string, Json.Value>>,
    contentText: Option<string>)

  predicate Exists(ev: seq<EvidenceRow>, req: UpsertRequest) {
    exists i :: 0 <= i < |ev| && HasKey(ev[i], req.source, req.origin, req.contentHash)
  }

  /** `evidence_hash` of the row with the highest id, if any. */
  function LastHash(ev: seq<EvidenceRow>): Option<string> {
    if ev == [] then None else Some(ev[|ev| - 1].evidenceHash)
  }

  datatype UpsertResult = UpsertResult(store: Store, inserted: bool)

  /** upsert_evidence at clock reading `now`: a no-op returning false when
      the key is already stored; otherwise one chained row is appended (and
      a history row when `contentText` is given) and true is returned. */
  function Upsert(s: Store, req: UpsertRequest, now: string, digest: Digest): (res: UpsertResult)
    ensures res.inserted <==> !Exists(s.evidence, req)
    ensures !res.inserted ==> res.store == s
    ensures res.inserted ==>
              && |res.store.evidence| == |s.evidence| + 1
              && res.store.evidence[..|s.evidence|] == s.evidence
    ensures res.inserted ==>
              var row := res.store.evidence[|s.evidence|];
              && HasKey(row, req.source, req.origin, req.contentHash)
              && row.title == req.title && row.observedAt == now
              && row.snippet == req.snippet && row.keywords == req.keywords && row.regexes == req.regexes
              && row.extra == req.extra.GetOr(map[])
              && row.prevHash == LastHash(s.evidence)
              && row.evidenceHash == RowHash(digest, row)
    ensures res.store.history == s.history +
              if res.inserted && req.contentText.Some? then
                [HistoryRow(req.source, req.origin, now, req.contentHash, req.contentText.value)]
              else []
  {
    if Exists(s.evidence, req) then UpsertResult(s, false)
    else
      var prev := LastHash(s.evidence);
      var extra := req.extra.GetOr(map[]);
      var hash := ComputeEvidenceHash(digest, req.source, req.origin, req.title, now, req.contentHash, prev,
                                      req.snippet, req.keywords, req.regexes, Some(extra));
      var row := EvidenceRow(req.source, req.origin, req.title, now, req.contentHash, req.snippet,
                             req.keywords, req.regexes, extra, prev, hash);
      var history := if req.contentText.Some? then
                       s.history + [HistoryRow(req.source, req.origin, now, req.contentHash, req.contentText.value)]
                     else s.history;
      UpsertResult(Store(s.evidence + [row], history), true)
  }

  /** Every upsert keeps the hash chain valid. */
  lemma UpsertPreservesChain(s: Store, req: UpsertRequest, now: string, digest: Digest)
    requires ValidChain(s.evidence, digest)
    ensures ValidChain(Upsert(s, req, now, digest).store.evidence, digest)
  {
    var res := Upsert(s, req, now, digest);
    if res.inserted {
      var ev := res.store.evidence;
      var n := |s.evidence|;
      assert ev == s.evidence + [ev[n]];
      AppendPreservesChain(s.evidence, ev[n], digest);
    }
  }

  /** Appending a row that links to the last hash and carries its own hash
      extends a valid chain. */
  lemma AppendPreservesChain(ev: seq<EvidenceRow>, row: EvidenceRow, digest: Digest)
    requires ValidChain(ev, digest)
    requires row.prevHash == LastHash(ev) && row.evidenceHash == RowHash(digest, row)
    ensures ValidChain(ev + [row], digest)
  {
    var ev' := ev + [row];
    forall i | 0 <= i < |ev'| ensures RowOk(ev', digest, i) {
      if i < |ev| {
        assert RowOk(ev, digest, i);
      }
    }
  }

  /** Every upsert keeps (source, origin, content_hash) unique. */
  lemma UpsertPreservesUnique(s: Store, req: UpsertRequest, now: string, digest: Digest)
    requires Unique(s.evidence)
    ensures Unique(Upsert(s, req, now, digest).store.evidence)
  {
    var res := Upsert(s, req, now, digest);
    if res.inserted {
      var ev := res.store.evidence;
      var n := |s.evidence|;
      forall i, j | 0 <= i < j < |ev| ensures !HasKey(ev[j], ev[i].source, ev[i].origin, ev[i].contentHash) {
        assert ev[i] == s.evidence[i];
        if j < n {
          assert ev[j] == s.evidence[j];
        } else {
          assert !HasKey(s.evidence[i], req.source, req.origin, req.contentHash);
        }
      }
    }
  }

  /** Re-observing the same content is a no-op: the second upsert of the
      same request reports false and changes neither table. */
  lemma UpsertIdempotent(s: Store, req: UpsertRequest, now1: string, now2: string, digest: Digest)
    ensures var first := Upsert(s, req, now1, digest);
            Upsert(first.store, req, now2, digest) == UpsertResult(first.store, false)
  {
    var first := Upsert(s, req, now1, digest);
    if first.inserted {
      var n := |s.evidence|;
      assert HasKey(first.store.evidence[n], req.source, req.origin, req.contentHash);
    }
  }

  /** Recomputes the chain from the first row (the check the stored hashes
      exist for): true exactly when the chain is valid. */
  method VerifyChain(ev: seq<EvidenceRow>, digest: Digest) returns (ok: bool)
    ensures ok <==> ValidChain(ev, digest)
  {
    var prev: Option<string> := None;
    var i := 0;
    while i < |ev|
      invariant 0 <= i <= |ev|
      invariant prev == if i == 0 then None else Some(ev[i - 1].evidenceHash)
      invariant forall k :: 0 <= k < i ==> RowOk(ev, digest, k)
    {
      if ev[i].prevHash != prev || ev[i].evidenceHash != RowHash(digest, ev[i]) {
        assert !RowOk(ev, digest, i);
        return false;
      }
      prev := Some(ev[i].evidenceHash);
      i := i + 1;
    }
    return true;
  }
}

=== FILE: ioc.dfy ===
/** Indicator-of-compromise extraction (osinttool/enrich/ioc.py): for each
    of six fixed kinds, the sorted set of the pattern's matches, the kind
    omitted when nothing matched. */
module Ioc {
  import opened Wrappers

  /** Python's `<` on strings: lexicographic by code point, a proper prefix
      ordering first. */
  predicate Less(a: string, b: string) {
    if a == [] then b != []
    else if b == [] then false
    else if a[0] != b[0] then a[0] < b[0]
    else Less(a[1..], b[1..])
  }

  lemma {:induction false} LessIrreflexive(a: string)
    ensures !Less(a, a)
  {
    if a != [] {
      LessIrreflexive(a[1..]);
    }
  }

  lemma {:induction false} LessAsymmetric(a: string, b: string)
    requires Less(a, b)
    ensures !Less(b, a)
  {
    if a != [] && b != [] && a[0] == b[0] {
      LessAsymmetric(a[1..], b[1..]);
    }
  }

  lemma {:induction false} LessTransitive(a: string, b: string, c: string)
    requires Less(a, b) && Less(b, c)
    ensures Less(a, c)
  {
    if a != [] && a[0] == b[0] && b[0] == c[0] {
      LessTransitive(a[1..], b[1..], c[1..]);
    }
  }

  lemma {:induction false} LessTotal(a: string, b: string)
    requires a != b
    ensures Less(a, b) || Less(b, a)
  {
    if a != [] && b != [] && a[0] == b[0] {
      assert a == [a[0]] + a[1..] && b == [b[0]] + b[1..];
      LessTotal(a[1..], b[1..]);
    }
  }

  /** Sorted with no duplicates. */
  predicate StrictlyAscending(xs: seq<string>) {
    forall i, j :: 0 <= i < j < |xs| ==> Less(xs[i], xs[j])
  }

  /** Adds `x` to a strictly ascending list, keeping it strictly ascending. */
  function Insert(x: string, xs: seq<string>): (r: seq<string>)
    requires StrictlyAscending(xs)
    ensures StrictlyAscending(r)
    ensures forall y :: y in r <==> y == x || y in xs
  {
    if xs == [] then [x]
    else if x == xs[0] then xs
    else if Less(x, xs[0]) then
      assert forall j :: 0 < j < |xs| ==> Less(x, xs[j]) by {
        forall j | 0 < j < |xs| ensures Less(x, xs[j]) {
          LessTransitive(x, xs[0], xs[j]);
        }
      }
      [x] + xs
    else
      LessTotal(x, xs[0]);
      var rest := Insert(x, xs[1..]);
      assert forall y :: y in rest ==> Less(xs[0], y);
      [xs[0]] + rest
  }

  /** Python's `sorted(set(xs))`. */
  function SortedSet(xs: seq<string>): (r: seq<string>)
    ensures StrictlyAscending(r)
    ensures forall y :: y in r <==> y in xs
  {
    if xs == [] then [] else Insert(xs[|xs| - 1], SortedSet(xs[..|xs| - 1]))
  }

  /** A strictly ascending list is determined by its elements: `SortedSet`
      is the only list that is ascending and holds exactly the hits. */
  lemma {:induction false} AscendingUnique(a: seq<string>, b: seq<string>)
    requires StrictlyAscending(a) && StrictlyAscending(b)
    requires forall y :: y in a <==> y in b
    ensures a == b
  {
    SameElementsBothEmpty(a, b);
    if a != [] {
      if a[0] != b[0] {
        assert b[0] in a;
        assert a[0] in b;
        var i :| 0 <= i < |a| && a[i] == b[0];
        var j :| 0 <= j < |b| && b[j] == a[0];
        assert i != 0 && j != 0;
        assert Less(a[0], b[0]) && Less(b[0], a[0]);
        LessAsymmetric(a[0], b[0]);
        assert false;
      }
      forall y ensures y in a[1..] <==> y in b[1..] {
        assert a == [a[0]] + a[1..] && b == [b[0]] + b[1..];
        if y in a[1..] {
          var i :| 1 <= i < |a| && a[i] == y;
          assert Less(a[0], y);
          LessIrreflexive(y);
          assert y in b && y != b[0];
        }
        if y in b[1..] {
          var j :| 1 <= j < |b| && b[j] == y;
          assert Less(b[0], y);
          LessIrreflexive(y);
          assert y in a && y != a[0];
        }
      }
      AscendingUnique(a[1..], b[1..]);
      assert a == [a[0]] + a[1..] && b == [b[0]] + b[1..];
    }
  }

  lemma SameElementsBothEmpty(a: seq<string>, b: seq<string>)
    requires forall y :: y in a <==> y in b
    ensures a == [] <==> b == []
  {
    if a != [] {
      assert a[0] in b;
    }
    if b != [] {
      assert b[0] in a;
    }
  }

  /** `re.findall(pattern, text, flags=re.IGNORECASE)`, outside this model. */
  type FindAll = (string, string) -> seq<string>

  datatype IocPattern = IocPattern(kind: string, regex: string)

  /** IOC_PATTERNS, in declaration order. */
  const IocPatterns: seq<IocPattern> := [
    IocPattern("ipv4", @"\b(?:\d{1,3}\.){3}\d{1,3}\b"),
    IocPattern("domain", @"\b(?:[a-z0-9](?:[a-z0-9-]{0,61}[a-z0-9])?\.)+[a-z]{2,}\b"),
    IocPattern("email", @"\b[A-Za-z0-9._%+-]+@[A-Za-z0-9.-]+\.[A-Za-z]{2,}\b"),
    IocPattern("md5", @"\b[a-f0-9]{32}\b"),
    IocPattern("sha256", @"\b[a-f0-9]{64}\b"),
    IocPattern("btc", @"\b[13][a-km-zA-HJ-NP-Z1-9]{25,34}\b")
  ]

  const Kinds: set<string> := {"ipv4", "domain", "email", "md5", "sha256", "btc"}

  predicate DistinctKinds(table: seq<IocPattern>) {
    forall i, j :: 0 <= i < j < |table| ==> table[i].kind != table[j].kind
  }

  /** The loop of extract_iocs over a table of patterns. */
  function Collect(table: seq<IocPattern>, text: string, findAll: FindAll): (out: map<string, seq<string>>)
    requires DistinctKinds(table)
    ensures forall k :: k in out ==> exists i :: 0 <= i < |table| && table[i].kind == k
    ensures forall i :: 0 <= i < |table| ==>
              (table[i].kind in out <==> findAll(table[i].regex, text) != [])
    ensures forall i :: 0 <= i < |table| && table[i].kind in out ==>
              out[table[i].kind] == SortedSet(findAll(table[i].regex, text))
  {
    if table == [] then map[]
    else
      var rest := Collect(table[1..], text, findAll);
      assert table[0].kind !in rest by {
        forall i | 0 <= i < |table[1..]| ensures table[1..][i].kind != table[0].kind {
          assert table[1..][i] == table[i + 1];
        }
      }
      var hits := findAll(table[0].regex, text);
      if hits != [] then rest[table[0].kind := SortedSet(hits)] else rest
  }

  /** extract_iocs: `None` is read as `""`; each kind is present exactly when
      its pattern found something, and then holds the sorted distinct hits. */
  function ExtractIocs(text: Option<string>, findAll: FindAll): (out: map<string, seq<string>>)
    ensures out.Keys <= Kinds
    ensures forall p :: p in IocPatterns ==> (p.kind in out <==> findAll(p.regex, text.GetOr("")) != [])
    ensures forall p :: p in IocPatterns && p.kind in out ==>
              out[p.kind] != []
              && StrictlyAscending(out[p.kind])
              && (forall y :: y in out[p.kind] <==> y in findAll(p.regex, text.GetOr("")))
  {
    PatternTable();
    Collect(IocPatterns, text.GetOr(""), findAll)
  }

  /** The six kinds of the table are distinct and are exactly `Kinds`. */
  lemma PatternTable()
    ensures DistinctKinds(IocPatterns)
    ensures forall i :: 0 <= i < |IocPatterns| ==> IocPatterns[i].kind in Kinds
    ensures forall p :: p in IocPatterns ==> exists i :: 0 <= i < |IocPatterns| && IocPatterns[i] == p
  {
  }

  /** The result is exactly `sorted(set(hits))`: any other ascending list of
      the same hits equals it. */
  lemma ExtractIocsIsSortedSet(text: Option<string>, findAll: FindAll, p: IocPattern, xs: seq<string>)
    requires p in IocPatterns && p.kind in ExtractIocs(text, findAll)
    requires StrictlyAscending(xs)
    requires forall y :: y in xs <==> y in findAll(p.regex, text.GetOr(""))
    ensures ExtractIocs(text, findAll)[p.kind] == xs
  {
    AscendingUnique(ExtractIocs(text, findAll)[p.kind], xs);
  }
}

=== FILE: json.dfy ===
/** JSON-like values: what YAML loading, the evidence `extra` bag and the
    canonical hash payload are made of. Floating-point numbers are not part
    of this model. */
module Json {

  datatype Value =
    | Null
    | Bool(b: bool)
    | Int(i: int)
    | Str(s: string)
    | List(items: seq<Value>)
    | Object(fields: map<string, Value>)

  /** Python truthiness: `None`, `False`, `0`, `""`, `[]` and `{}` are false. */
  predicate Truthy(v: Value) {
    match v
    case Null => false
    case Bool(b) => b
    case Int(i) => i != 0
    case Str(s) => s != ""
    case List(xs) => xs != []
    case Object(m) => m != map[]
  }

  /** Python's `v or d`. */
  function Or(v: Value, d: Value): Value {
    if Truthy(v) then v else d
  }

  /** Python's `m.get(k, d)` on a dictionary. */
  function Get(m: map<string, Value>, k: string, d: Value): Value {
    if k in m then m[k] else d
  }

  const EmptyObject: Value := Object(map[])

  /** A list of strings as a JSON array of strings. */
  function StrList(xs: seq<string>): (v: Value)
    ensures v.List? && |v.items| == |xs|
    ensures forall i :: 0 <= i < |xs| ==> v.items[i] == Str(xs[i])
  {
    List(seq(|xs|, i requires 0 <= i < |xs| => Str(xs[i])))
  }
}

=== FILE: pipeline.dfy ===
/** One pass of the pipeline over one source (osinttool/cli.py): fetch,
    match, extract indicators, enrich, upsert, and alert on hits. Every
    outside effect (regex engine, hashing, DNS/WHOIS, redaction, clock,
    alert delivery) is a function in `Oracles`. */
module Pipeline {
  import opened Wrappers
  import Json
  import Text
  import Ioc
  import Evidence
  import Sources
  import Config

  /** The settings a pass reads: the matching lists (as string lists), the
      snippet bound and the alerts section. */
  datatype Settings = Settings(keywords: seq<string>, patterns: seq<string>, maxSnippetChars: int,
                               alerts: Config.AlertsConfig)

  datatype AlertEvent = AlertEvent(
    source: string,
    origin: string,
    title: Option<string>,
    keywords: seq<string>,
    regexes: seq<string>,
    iocs: map<string, seq<string>>,
    snippet: string)

  /** The arguments of one send_email call; the body is the event itself. */
  datatype EmailMessage = EmailMessage(
    host: Json.Value,
    port: int,
    username: Json.Value,
    password: Json.Value,
    fromAddr: Json.Value,
    toAddrs: Json.Value,
    subject: string,
    event: AlertEvent)

  datatype Oracles = Oracles(
    search: Text.Search,
    findAll: Ioc.FindAll,
    sha256Text: string -> string,
    digest: Evidence.Digest,
    extractDomain: string -> Option<string>,
    dnsLookup: string -> Json.Value,
    whoisLookup: string -> Json.Value,
    redact: string -> string,
    clock: nat -> string,
    sendWebhook: (Json.Value, AlertEvent) -> bool,
    sendEmail: EmailMessage -> bool)

  /** What happened on one alert channel; a failure is logged, not raised. */
  datatype Attempt = NotAttempted | Delivered | FailedAndLogged

  /** An alerts sub-section that is set but is not a mapping makes
      `_alert` raise. */
  datatype AlertError = SettingsNotAMapping(channel: string)

  datatype AlertOutcome = AlertOutcome(webhook: Attempt, smtp: Attempt, raised: Option<AlertError>)

  /** The mail subject names the source and the title, or the origin when
      the title is missing or empty. */
  function Subject(event: AlertEvent): (r: string)
    ensures event.title.Some? && event.title.value != "" ==>
              r == "[OSINT HIT] " + event.source + " :: " + event.title.value
    ensures event.title.None? || event.title.value == "" ==>
              r == "[OSINT HIT] " + event.source + " :: " + event.origin
  {
    var shown := if event.title.Some? && event.title.value != "" then event.title.value else event.origin;
    "[OSINT HIT] " + event.source + " :: " + shown
  }

  /** The send_email arguments; a missing required key or a bad port makes
      the call fail before anything is sent. */
  function EmailOf(smtp: map<string, Json.Value>, event: AlertEvent): (msg: Option<EmailMessage>)
    ensures msg.Some? <==>
              && "host" in smtp && "username" in smtp && "password" in smtp && "from_addr" in smtp
              && Config.PyInt(Json.Get(smtp, "port", Json.Int(587))).Ok?
    ensures msg.Some? ==>
              && msg.value.host == smtp["host"]
              && Config.PyInt(Json.Get(smtp, "port", Json.Int(587))) == Ok(msg.value.port)
              && msg.value.username == smtp["username"] && msg.value.password == smtp["password"]
              && msg.value.fromAddr == smtp["from_addr"]
              && msg.value.toAddrs == Json.Get(smtp, "to_addrs", Json.List([]))
              && msg.value.subject == Subject(event) && msg.value.event == event
  {
    if "host" !in smtp || "username" !in smtp || "password" !in smtp || "from_addr" !in smtp then None
    else
      match Config.PyInt(Json.Get(smtp, "port", Json.Int(587)))
      case Err(_) => None
      case Ok(port) =>
        Some(EmailMessage(smtp["host"], port, smtp["username"], smtp["password"], smtp["from_addr"],
                          Json.Get(smtp, "to_addrs", Json.List([])), Subject(event), event))
  }

  predicate WebhookWanted(w: map<string, Json.Value>) {
    Json.Truthy(Json.Get(w, "enabled", Json.Null)) && Json.Truthy(Json.Get(w, "url", Json.Null))
  }

  predicate SmtpWanted(m: map<string, Json.Value>) {
    Json.Truthy(Json.Get(m, "enabled", Json.Null))
  }

  /** _alert: the webhook is tried when enabled and given a url, SMTP when
      enabled; a failure on either channel is absorbed. */
  function Alert(alerts: Config.AlertsConfig, event: AlertEvent, o: Oracles): (r: AlertOutcome)
    ensures r.raised.None? <==>
              Json.Or(alerts.webhook, Json.EmptyObject).Object? && Json.Or(alerts.smtp, Json.EmptyObject).Object?
    ensures !Json.Or(alerts.webhook, Json.EmptyObject).Object? ==>
              r == AlertOutcome(NotAttempted, NotAttempted, Some(SettingsNotAMapping("webhook")))
    ensures Json.Or(alerts.webhook, Json.EmptyObject).Object? && !Json.Or(alerts.smtp, Json.EmptyObject).Object? ==>
              r.smtp == NotAttempted && r.raised == Some(SettingsNotAMapping("smtp"))
  {
    var webhook := Json.Or(alerts.webhook, Json.EmptyObject);
    if !webhook.Object? then AlertOutcome(NotAttempted, NotAttempted, Some(SettingsNotAMapping("webhook")))
    else
      var w := webhook.fields;
      var hook := if WebhookWanted(w) then
                    (if o.sendWebhook(w["url"], event) then Delivered else FailedAndLogged)
                  else NotAttempted;
      var smtp := Json.Or(alerts.smtp, Json.EmptyObject);
      if !smtp.Object? then AlertOutcome(hook, NotAttempted, Some(SettingsNotAMapping("smtp")))
      else
        var m := smtp.fields;
        var mail := if !SmtpWanted(m) then NotAttempted
                    else match EmailOf(m, event)
                         case None => FailedAndLogged
                         case Some(msg) => if o.sendEmail(msg) then Delivered else FailedAndLogged;
        AlertOutcome(hook, mail, None)
  }

  /** The webhook is tried exactly when enabled and given a url, and is
      delivered exactly when the sender accepts; this happens before the
      smtp setting is looked at, so it holds even when that one raises. */
  lemma WebhookGating(alerts: Config.AlertsConfig, event: AlertEvent, o: Oracles)
    requires Json.Or(alerts.webhook, Json.EmptyObject).Object?
    ensures var w := Json.Or(alerts.webhook, Json.EmptyObject).fields;
            && (Alert(alerts, event, o).webhook != NotAttempted <==> WebhookWanted(w))
            && (Alert(alerts, event, o).webhook == Delivered ==> o.sendWebhook(w["url"], event))
            && (WebhookWanted(w) ==> (Alert(alerts, event, o).webhook == Delivered <==> o.sendWebhook(w["url"], event)))
  {
  }

  /** With both settings mappings, SMTP is tried exactly when enabled, and
      is delivered exactly when the send_email arguments could be built and
      the sender accepts them. (A non-mapping webhook setting raises before
      SMTP is looked at; `Alert` states that case.) */
  lemma SmtpGating(alerts: Config.AlertsConfig, event: AlertEvent, o: Oracles)
    requires Json.Or(alerts.webhook, Json.EmptyObject).Object? && Json.Or(alerts.smtp, Json.EmptyObject).Object?
    ensures var m := Json.Or(alerts.smtp, Json.EmptyObject).fields;
            && (Alert(alerts, event, o).smtp != NotAttempted <==> SmtpWanted(m))
            && (SmtpWanted(m) ==>
                  (Alert(alerts, event, o).smtp == Delivered <==>
                     EmailOf(m, event).Some? && o.sendEmail(EmailOf(m, event).value)))
  {
  }

  /** The two channels are isolated: how the webhook call fares never
      changes what happens on SMTP, and the other way round. */
  lemma AlertChannelsIsolated(alerts: Config.AlertsConfig, event: AlertEvent, o: Oracles,
                              hook: (Json.Value, AlertEvent) -> bool, mail: EmailMessage -> bool)
    requires Json.Or(alerts.webhook, Json.EmptyObject).Object?
    ensures Alert(alerts, event, o).smtp == Alert(alerts, event, o.(sendWebhook := hook)).smtp
    ensures Alert(alerts, event, o).webhook == Alert(alerts, event, o.(sendEmail := mail)).webhook
  {
  }

  function EndsWith(s: string, suffix: string): bool {
    |suffix| <= |s| && s[|s| - |suffix|..] == suffix
  }

  /** A domain is looked up when present, non-empty and not an onion. */
  predicate Enrichable(domain: Option<string>) {
    domain.Some? && domain.value != "" && !EndsWith(domain.value, ".onion")
  }

  function IocsJson(iocs: map<string, seq<string>>): Json.Value {
    Json.Object(map k | k in iocs :: Json.StrList(iocs[k]))
  }

  /** The `extra` bag of an evidence row: the item's own entries, then DNS
      and WHOIS results for an enrichable domain, then the indicators when
      there are any. */
  function ItemExtra(it: Sources.Item, iocs: map<string, seq<string>>, o: Oracles): (extra: map<string, Json.Value>)
    ensures forall k :: k in it.extra && k != "dns" && k != "whois" && k != "iocs" ==>
              k in extra && extra[k] == it.extra[k]
    ensures extra.Keys == it.extra.Keys
              + (if Enrichable(o.extractDomain(it.origin)) then {"dns", "whois"} else {})
              + (if iocs != map[] then {"iocs"} else {})
    ensures !Enrichable(o.extractDomain(it.origin)) ==>
              forall k :: k in extra && (k == "dns" || k == "whois") ==> extra[k] == it.extra[k]
    ensures Enrichable(o.extractDomain(it.origin)) ==>
              var d := o.extractDomain(it.origin).value;
              extra["dns"] == o.dnsLookup(d) && extra["whois"] == o.whoisLookup(d)
    ensures iocs != map[] ==> extra["iocs"] == IocsJson(iocs)
    ensures iocs == map[] && "iocs" in extra ==> extra["iocs"] == it.extra["iocs"]
  {
    var domain := o.extractDomain(it.origin);
    var enriched := if Enrichable(domain) then
                      it.extra["dns" := o.dnsLookup(domain.value)]["whois" := o.whoisLookup(domain.value)]
                    else it.extra;
    if iocs != map[] then enriched["iocs" := IocsJson(iocs)] else enriched
  }

  /** What the pass computes for one item before touching the store. */
  datatype Analysis = Analysis(matches: Text.Matches, iocs: map<string, seq<string>>, snippet: string,
                               request: Evidence.UpsertRequest)

  function Analyze(name: string, s: Settings, it: Sources.Item, o: Oracles): (a: Analysis)
    ensures a.request.source == name && a.request.origin == it.origin && a.request.title == it.title
    ensures a.request.contentHash == o.sha256Text(it.text)
    ensures a.request.snippet == Some(a.snippet)
    ensures a.request.keywords == Some(a.matches.keywords) && a.request.regexes == Some(a.matches.patterns)
    ensures a.request.contentText.None?
  {
    var m := Text.FindMatches(it.text, s.keywords, s.patterns, o.search);
    var snippet := Text.MakeSnippet(it.text, s.maxSnippetChars);
    var iocs := Ioc.ExtractIocs(Some(it.text), o.findAll);
    var req := Evidence.UpsertRequest(name, it.origin, it.title, o.sha256Text(it.text), Some(snippet),
                                      Some(m.keywords), Some(m.patterns), Some(ItemExtra(it, iocs, o)), None);
    Analysis(m, iocs, snippet, req)
  }

  /** The analysis of an item is computed from the item's own text with
      the configured settings: the hits, the indicators, the snippet and
      the enriched extra bag. */
  lemma AnalyzeUsesItemText(name: string, s: Settings, it: Sources.Item, o: Oracles)
    ensures var a := Analyze(name, s, it, o);
            && a.matches == Text.FindMatches(it.text, s.keywords, s.patterns, o.search)
            && a.iocs == Ioc.ExtractIocs(Some(it.text), o.findAll)
            && a.snippet == Text.MakeSnippet(it.text, s.maxSnippetChars)
            && a.request.extra == Some(ItemExtra(it, a.iocs, o))
  {
  }

  /** Two items with the same origin and text are one piece of evidence:
      their upserts share the deduplication key. */
  lemma SameTextSameKey(name: string, s: Settings, it1: Sources.Item, it2: Sources.Item, o: Oracles)
    requires it1.origin == it2.origin && it1.text == it2.text
    ensures var r1 := Analyze(name, s, it1, o).request;
            var r2 := Analyze(name, s, it2, o).request;
            r1.source == r2.source && r1.origin == r2.origin && r1.contentHash == r2.contentHash
  {
  }

  /** An item is alert-worthy when a keyword, a pattern or an indicator hit. */
  predicate IsHit(a: Analysis) {
    a.matches.keywords != [] || a.matches.patterns != [] || a.iocs != map[]
  }

  datatype ItemRecord = ItemRecord(analysis: Analysis, inserted: bool, alert: Option<(AlertEvent, AlertOutcome)>)

  datatype PassFailure = FetchFailed(fetchError: Sources.FetchError) | AlertRaised(alertError: AlertError)

  datatype PassResult = PassResult(store: Evidence.Store, records: seq<ItemRecord>, failure: Option<PassFailure>)

  function Requests(records: seq<ItemRecord>): (reqs: seq<Evidence.UpsertRequest>)
    ensures |reqs| == |records|
    ensures forall i :: 0 <= i < |records| ==> reqs[i] == records[i].analysis.request
  {
    if records == [] then [] else [records[0].analysis.request] + Requests(records[1..])
  }

  /** How the pass stores one request: the k-th upsert of a pass. */
  type Upserter = (Evidence.Store, Evidence.UpsertRequest, nat) -> Evidence.UpsertResult

  /** upsert_evidence with the wall clock read once per call: the k-th
      call sees `clock(k)`. */
  function UpsertAt(clock: nat -> string, digest: Evidence.Digest): Upserter {
    (st: Evidence.Store, req: Evidence.UpsertRequest, k: nat) => Evidence.Upsert(st, req, clock(k), digest)
  }

  /** Upserts `reqs` one after another, the k-th as call `start + k`. */
  function Replay(store: Evidence.Store, reqs: seq<Evidence.UpsertRequest>, upsert: Upserter, start: nat)
    : Evidence.Store
    decreases |reqs|
  {
    if reqs == [] then store
    else Replay(upsert(store, reqs[0], start).store, reqs[1..], upsert, start + 1)
  }

  /** What the pass records for an item with analysis `a`: an alert exactly
      when it is a hit, carrying the hits and the redacted snippet. */
  predicate RecordOk(name: string, dispatch: AlertEvent -> AlertOutcome, it: Sources.Item, a: Analysis, o: Oracles,
                     rec: ItemRecord) {
    && rec.analysis == a
    && (rec.alert.Some? <==> IsHit(a))
    && (rec.alert.Some? ==>
          var ev := rec.alert.value.0;
          && ev.source == name && ev.origin == it.origin && ev.title == it.title
          && ev.keywords == a.matches.keywords && ev.regexes == a.matches.patterns && ev.iocs == a.iocs
          && ev.snippet == o.redact(a.snippet)
          && rec.alert.value.1 == dispatch(ev))
  }

  /** The alert of this record (if any) did not raise. */
  predicate Continued(rec: ItemRecord) {
    rec.alert.None? || rec.alert.value.1.raised.None?
  }

  /** How a pass over fetched items ends: every record but the last
      continued; it failed exactly when the last record's alert raised, and
      then with that alert's error. */
  predicate StopsOnRaise(r: PassResult) {
    && (forall k :: 0 <= k < |r.records| - 1 ==> Continued(r.records[k]))
    && (r.failure.None? ==> forall k :: 0 <= k < |r.records| ==> Continued(r.records[k]))
    && (r.failure.Some? ==>
          && r.records != []
          && !Continued(r.records[|r.records| - 1])
          && r.failure.value == AlertRaised(r.records[|r.records| - 1].alert.value.1.raised.value))
  }

  /** Dispatches the alert of one analysed item. */
  function ItemStep(name: string, dispatch: AlertEvent -> AlertOutcome, it: Sources.Item, a: Analysis, o: Oracles,
                    inserted: bool): (rec: ItemRecord)
    ensures RecordOk(name, dispatch, it, a, o, rec) && rec.inserted == inserted
  {
    var alert :=
      if IsHit(a) then
        var event := AlertEvent(name, it.origin, it.title, a.matches.keywords, a.matches.patterns, a.iocs,
                                o.redact(a.snippet));
        Some((event, dispatch(event)))
      else None;
    ItemRecord(a, inserted, alert)
  }

  /** The loop of _process_source over the remaining items, given each
      item's analysis and the alert dispatcher; `i` is the position of the
      first of them, which is also its clock reading. One upsert per item,
      in order; an alert that raises ends the pass after its item. */
  function ProcessItems(store: Evidence.Store, name: string, dispatch: AlertEvent -> AlertOutcome, upsert: Upserter,
                        items: seq<Sources.Item>, analyses: seq<Analysis>, o: Oracles, i: nat): (r: PassResult)
    requires |items| == |analyses|
    ensures |r.records| <= |items|
    ensures r.failure.None? ==> |r.records| == |items|
    ensures r.failure.Some? ==> r.failure.value.AlertRaised? && r.records != []
    decreases |items|
  {
    if items == [] then PassResult(store, [], None)
    else
      var a := analyses[0];
      var up := upsert(store, a.request, i);
      var record := ItemStep(name, dispatch, items[0], a, o, up.inserted);
      if !Continued(record) then
        PassResult(up.store, [record], Some(AlertRaised(record.alert.value.1.raised.value)))
      else
        var rest := ProcessItems(up.store, name, dispatch, upsert, items[1..], analyses[1..], o, i + 1);
        PassResult(rest.store, [record] + rest.records, rest.failure)
  }

  /** Each record of the loop belongs to its item: the analysis given for
      it, and an alert exactly on a hit, carrying the hits. */
  lemma {:induction false} ProcessItemsRecords(store: Evidence.Store, name: string,
                                               dispatch: AlertEvent -> AlertOutcome, upsert: Upserter,
                                               items: seq<Sources.Item>, analyses: seq<Analysis>, o: Oracles,
                                               i: nat)
    requires |items| == |analyses|
    ensures var r := ProcessItems(store, name, dispatch, upsert, items, analyses, o, i);
            forall k :: 0 <= k < |r.records| ==> RecordOk(name, dispatch, items[k], analyses[k], o, r.records[k])
    decreases |items|
  {
    var r := ProcessItems(store, name, dispatch, upsert, items, analyses, o, i);
    if items != [] {
      var up := upsert(store, analyses[0].request, i);
      var record := ItemStep(name, dispatch, items[0], analyses[0], o, up.inserted);
      if Continued(record) {
        var rest := ProcessItems(up.store, name, dispatch, upsert, items[1..], analyses[1..], o, i + 1);
        ProcessItemsRecords(up.store, name, dispatch, upsert, items[1..], analyses[1..], o, i + 1);
        assert r.records == [record] + rest.records;
        forall k | 1 <= k < |r.records|
          ensures RecordOk(name, dispatch, items[k], analyses[k], o, r.records[k])
        {
          assert r.records[k] == rest.records[k - 1];
          assert items[1..][k - 1] == items[k] && analyses[1..][k - 1] == analyses[k];
        }
      }
    }
  }

  /** The loop stops exactly at the first alert that raised. */
  lemma {:induction false} ProcessItemsStops(store: Evidence.Store, name: string,
                                             dispatch: AlertEvent -> AlertOutcome, upsert: Upserter,
                                               items: seq<Sources.Item>,
                                             analyses: seq<Analysis>, o: Oracles, i: nat)
    requires |items| == |analyses|
    ensures StopsOnRaise(ProcessItems(store, name, dispatch, upsert, items, analyses, o, i))
    decreases |items|
  {
    var r := ProcessItems(store, name, dispatch, upsert, items, analyses, o, i);
    if items != [] {
      var up := upsert(store, analyses[0].request, i);
      var record := ItemStep(name, dispatch, items[0], analyses[0], o, up.inserted);
      if Continued(record) {
        var rest := ProcessItems(up.store, name, dispatch, upsert, items[1..], analyses[1..], o, i + 1);
        ProcessItemsStops(up.store, name, dispatch, upsert, items[1..], analyses[1..], o, i + 1);
        assert r.records == [record] + rest.records && r.failure == rest.failure;
        assert forall k :: 1 <= k < |r.records| ==> r.records[k] == rest.records[k - 1];
        if rest.records != [] {
          assert r.records[|r.records| - 1] == rest.records[|rest.records| - 1];
        }
      }
    }
  }

  /** The store a pass leaves is the one its upserts, replayed in item
      order, produce: one upsert per recorded item and nothing else. */
  lemma {:induction false} ProcessItemsIsReplay(store: Evidence.Store, name: string,
                                                dispatch: AlertEvent -> AlertOutcome, upsert: Upserter,
                                                items: seq<Sources.Item>, analyses: seq<Analysis>, o: Oracles,
                                                i: nat)
    requires |items| == |analyses|
    ensures var r := ProcessItems(store, name, dispatch, upsert, items, analyses, o, i);
            r.store == Replay(store, Requests(r.records), upsert, i)
    decreases |items|
  {
    var r := ProcessItems(store, name, dispatch, upsert, items, analyses, o, i);
    if items != [] {
      var up := upsert(store, analyses[0].request, i);
      var record := ItemStep(name, dispatch, items[0], analyses[0], o, up.inserted);
      if !Continued(record) {
        assert r.records == [record];
        assert Requests([record])[1..] == [];
      } else {
        var rest := ProcessItems(up.store, name, dispatch, upsert, items[1..], analyses[1..], o, i + 1);
        ProcessItemsIsReplay(up.store, name, dispatch, upsert, items[1..], analyses[1..], o, i + 1);
        assert r.records == [record] + rest.records;
        assert Requests([record] + rest.records)[1..] == Requests(rest.records);
      }
    }
  }

  /** _process_source: the fetch is materialised first, so a failed fetch
      touches nothing; then every item is analysed, upserted and, on a hit,
      alerted, in item order. */
  function ProcessSource(store: Evidence.Store, src: Sources.Source, s: Settings, net: Sources.Network,
                         o: Oracles): (r: PassResult)
    ensures Sources.Fetch(src, net).items.Err? ==>
              r == PassResult(store, [], Some(FetchFailed(Sources.Fetch(src, net).items.error)))
    ensures Sources.Fetch(src, net).items.Ok? ==>
              var items := Sources.Fetch(src, net).items.value;
              && |r.records| <= |items|
              && (r.failure.None? ==> |r.records| == |items|)
              && (r.failure.Some? ==> r.failure.value.AlertRaised? && r.records != [])
  {
    match Sources.Fetch(src, net).items
    case Err(e) => PassResult(store, [], Some(FetchFailed(e)))
    case Ok(items) =>
      var analyses := seq(|items|, k requires 0 <= k < |items| => Analyze(src.name, s, items[k], o));
      ProcessItems(store, src.name, ev => Alert(s.alerts, ev, o), UpsertAt(o.clock, o.digest), items, analyses,
                   o, 0)
  }

  /** After a successful fetch, the k-th record is that of the k-th item,
      analysed with the configured settings and alerted through `_alert`;
      the pass stops exactly at the first alert that raised. */
  lemma PassRecords(store: Evidence.Store, src: Sources.Source, s: Settings, net: Sources.Network, o: Oracles)
    requires Sources.Fetch(src, net).items.Ok?
    ensures var items := Sources.Fetch(src, net).items.value;
            var r := ProcessSource(store, src, s, net, o);
            && StopsOnRaise(r)
            && forall k :: 0 <= k < |r.records| ==>
                 RecordOk(src.name, ev => Alert(s.alerts, ev, o), items[k], Analyze(src.name, s, items[k], o), o,
                          r.records[k])
  {
    var items := Sources.Fetch(src, net).items.value;
    var analyses := seq(|items|, k requires 0 <= k < |items| => Analyze(src.name, s, items[k], o));
    var dispatch := ev => Alert(s.alerts, ev, o);
    ProcessItemsRecords(store, src.name, dispatch, UpsertAt(o.clock, o.digest), items, analyses, o, 0);
    ProcessItemsStops(store, src.name, dispatch, UpsertAt(o.clock, o.digest), items, analyses, o, 0);
  }

  /** Every upsert of a pass is keyed by the source's name and the item's
      origin, and carries no content text. */
  lemma PassRequests(store: Evidence.Store, src: Sources.Source, s: Settings, net: Sources.Network, o: Oracles)
    requires Sources.Fetch(src, net).items.Ok?
    ensures var items := Sources.Fetch(src, net).items.value;
            var r := ProcessSource(store, src, s, net, o);
            forall k :: 0 <= k < |r.records| ==>
              var req := Requests(r.records)[k];
              req.source == src.name && req.origin == items[k].origin && req.title == items[k].title
              && req.contentText.None?
  {
    PassRecords(store, src, s, net, o);
  }

  /** A pass changes the store only through its upserts, one per recorded
      item, in item order. */
  lemma PassIsReplay(store: Evidence.Store, src: Sources.Source, s: Settings, net: Sources.Network, o: Oracles)
    ensures var r := ProcessSource(store, src, s, net, o);
            r.store == Replay(store, Requests(r.records), UpsertAt(o.clock, o.digest), 0)
  {
    match Sources.Fetch(src, net).items
    case Err(_) =>
    case Ok(items) =>
      var analyses := seq(|items|, k requires 0 <= k < |items| => Analyze(src.name, s, items[k], o));
      ProcessItemsIsReplay(store, src.name, ev => Alert(s.alerts, ev, o), UpsertAt(o.clock, o.digest),
                           items, analyses, o, 0);
  }

  /** Replaying upserts keeps both store invariants. */
  lemma {:induction false} ReplayPreservesInvariants(store: Evidence.Store, reqs: seq<Evidence.UpsertRequest>,
                                                     clock: nat -> string, start: nat, digest: Evidence.Digest)
    requires Evidence.ValidChain(store.evidence, digest) && Evidence.Unique(store.evidence)
    ensures var after := Replay(store, reqs, UpsertAt(clock, digest), start);
            Evidence.ValidChain(after.evidence, digest) && Evidence.Unique(after.evidence)
    decreases |reqs|
  {
    if reqs != [] {
      Evidence.UpsertPreservesChain(store, reqs[0], clock(start), digest);
      Evidence.UpsertPreservesUnique(store, reqs[0], clock(start), digest);
      ReplayPreservesInvariants(Evidence.Upsert(store, reqs[0], clock(start), digest).store, reqs[1..],
                                clock, start + 1, digest);
    }
  }

  /** Replaying upserts without content text never adds history. */
  lemma {:induction false} ReplayWithoutTextKeepsHistory(store: Evidence.Store, reqs: seq<Evidence.UpsertRequest>,
                                                         clock: nat -> string, start: nat, digest: Evidence.Digest)
    requires forall k :: 0 <= k < |reqs| ==> reqs[k].contentText.None?
    ensures Replay(store, reqs, UpsertAt(clock, digest), start).history == store.history
    decreases |reqs|
  {
    if reqs != [] {
      ReplayWithoutTextKeepsHistory(Evidence.Upsert(store, reqs[0], clock(start), digest).store, reqs[1..],
                                    clock, start + 1, digest);
    }
  }

  /** A pass keeps the evidence chain valid and unique, and never writes
      content history. */
  lemma PassPreservesStore(store: Evidence.Store, src: Sources.Source, s: Settings, net: Sources.Network, o: Oracles)
    requires Evidence.ValidChain(store.evidence, o.digest) && Evidence.Unique(store.evidence)
    ensures var r := ProcessSource(store, src, s, net, o);
            && Evidence.ValidChain(r.store.evidence, o.digest)
            && Evidence.Unique(r.store.evidence)
            && r.store.history == store.history
  {
    var r := ProcessSource(store, src, s, net, o);
    var reqs := Requests(r.records);
    PassIsReplay(store, src, s, net, o);
    ReplayPreservesInvariants(store, reqs, o.clock, 0, o.digest);
    if Sources.Fetch(src, net).items.Ok? {
      PassRequests(store, src, s, net, o);
      ReplayWithoutTextKeepsHistory(store, reqs, o.clock, 0, o.digest);
    }
  }
}

=== FILE: seqs.dfy ===
/** Order-preserving filtering and the subsequence relation, shared by the
    keyword matcher, the pattern matcher and the feed-entry filter. */
module Seqs {

  /** `a` can be obtained from `b` by deleting elements (order kept). */
  predicate IsSubsequence<T(==)>(a: seq<T>, b: seq<T>)
    decreases |b|
  {
    if a == [] then true
    else if b == [] then false
    else if a[0] == b[0] then IsSubsequence(a[1..], b[1..])
    else IsSubsequence(a, b[1..])
  }

  /** The elements of `xs` satisfying `p`, in order, duplicates kept
      (a Python list comprehension `[x for x in xs if p(x)]`). */
  function Filter<T>(xs: seq<T>, p: T -> bool): seq<T>
  {
    if xs == [] then []
    else (if p(xs[0]) then [xs[0]] else []) + Filter(xs[1..], p)
  }

  /** What `Filter` keeps: a subsequence of the input, made of elements
      satisfying `p`, each kept exactly as often as it occurs. */
  lemma {:induction false} FilterSpec<T>(xs: seq<T>, p: T -> bool)
    ensures IsSubsequence(Filter(xs, p), xs)
    ensures forall x :: x in Filter(xs, p) ==> p(x)
    ensures forall x :: multiset(Filter(xs, p))[x] == if p(x) then multiset(xs)[x] else 0
  {
    if xs != [] {
      FilterSpec(xs[1..], p);
      var r := Filter(xs[1..], p);
      assert xs == [xs[0]] + xs[1..];
      if p(xs[0]) {
        assert Filter(xs, p) == [xs[0]] + r;
        assert ([xs[0]] + r)[1..] == r;
      } else {
        assert Filter(xs, p) == r;
        SubsequenceOfTail(r, xs);
      }
    }
  }

  /** Adding an element in front of `b` keeps every subsequence of `b`. */
  lemma {:induction false} SubsequenceOfTail<T>(a: seq<T>, b: seq<T>)
    requires b != []
    requires IsSubsequence(a, b[1..])
    ensures IsSubsequence(a, b)
    decreases |b|, 0
  {
    if a != [] && a[0] == b[0] {
      SubsequenceDropHead(a, b[1..]);
    }
  }

  /** Dropping the first element of a subsequence keeps it a subsequence. */
  lemma {:induction false} SubsequenceDropHead<T>(a: seq<T>, b: seq<T>)
    requires a != []
    requires IsSubsequence(a, b)
    ensures IsSubsequence(a[1..], b)
    decreases |b|, 1
  {
    if a[0] == b[0] {
      SubsequenceOfTail(a[1..], b);
    } else {
      SubsequenceDropHead(a, b[1..]);
      SubsequenceOfTail(a[1..], b);
    }
  }

  /** Filtering distributes over concatenation. */
  lemma {:induction false} FilterAppend<T>(a: seq<T>, b: seq<T>, p: T -> bool)
    ensures Filter(a + b, p) == Filter(a, p) + Filter(b, p)
  {
    if a != [] {
      assert (a + b)[1..] == a[1..] + b;
      FilterAppend(a[1..], b, p);
    } else {
      assert a + b == b;
    }
  }

  /** An element that fails `p` can be removed without changing the result. */
  lemma FilterSkipsRejected<T>(a: seq<T>, x: T, b: seq<T>, p: T -> bool)
    requires !p(x)
    ensures Filter(a + [x] + b, p) == Filter(a + b, p)
  {
    FilterAppend(a + [x], b, p);
    FilterAppend(a, [x], p);
    FilterAppend(a, b, p);
    assert Filter([x], p) == [];
  }
}

=== FILE: sources.dfy ===
/** The source variants (osinttool/sources/): each turns one response from
    the configured URL into a sequence of items. HTTP transport and HTML/XML
    parsing are outside the model: a response arrives already parsed, and
    the transport is a function from request to response or failure. */
module Sources {
  import opened Wrappers
  import Json
  import Seqs

  /** One unit of fetched content (osinttool/sources/base.py). */
  datatype Item = Item(origin: string, title: Option<string>, text: string, extra: map<string, Json.Value>)

  datatype Source =
    | Rss(name: string, url: string, timeout: int)
    | HttpPage(name: string, url: string, timeout: int)
    | OnionAllowlist(name: string, url: string, torSocks5: string, torControlPort: int,
                     renewCircuit: bool, timeout: int)

  /** A GET request as handed to the rate-limited session. */
  datatype Request = Request(url: string, proxies: map<string, string>, timeout: int)

  /** One `<item>` of a feed, each element's text already extracted with
      surrounding whitespace stripped; `None` when the element is absent. */
  datatype FeedEntry = FeedEntry(title: Option<string>, link: Option<string>, description: Option<string>)

  /** A response: its status, the items the XML parser finds in the body,
      and the page title and flattened text the HTML parser finds. */
  datatype Response = Response(status: int, entries: seq<FeedEntry>, pageTitle: Option<string>, pageText: string)

  datatype FetchError = TransportFailure(reason: string) | HttpStatusError(status: int)

  /** Outcome of asking the Tor control port for a new circuit. */
  datatype ControlOutcome = NewCircuit | ControlFailure(reason: string)

  /** What the outside world answers: the transport, whether the Tor control
      library is installed, and the control port's answer. */
  datatype Network = Network(
    get: Request -> Result<Response, string>,
    stemInstalled: bool,
    control: int -> ControlOutcome)

  /** What circuit renewal did; every outcome lets the fetch go ahead. */
  datatype Renewal = NotRequested | StemMissing | Renewed | RenewalFailed(reason: string)

  /** `raise_for_status`: client and server errors (400 to 599) raise. */
  predicate IsHttpError(status: int) {
    400 <= status < 600
  }

  /** The single request each fetch issues: always the configured URL, and
      for onion sources both schemes routed through the SOCKS proxy. */
  function RequestOf(src: Source): (req: Request)
    ensures req.url == src.url && req.timeout == src.timeout
    ensures src.OnionAllowlist? ==>
              req.proxies.Keys == {"http", "https"}
              && req.proxies["http"] == src.torSocks5 && req.proxies["https"] == src.torSocks5
    ensures !src.OnionAllowlist? ==> req.proxies == map[]
  {
    match src
    case OnionAllowlist(_, url, socks, _, _, timeout) =>
      Request(url, map["http" := socks, "https" := socks], timeout)
    case _ => Request(src.url, map[], src.timeout)
  }

  /** OnionAllowlistSource._renew. */
  function Renew(src: Source, net: Network): (r: Renewal)
    ensures !src.OnionAllowlist? || !src.renewCircuit ==> r == NotRequested
    ensures src.OnionAllowlist? && src.renewCircuit && !net.stemInstalled ==> r == StemMissing
    ensures src.OnionAllowlist? && src.renewCircuit && net.stemInstalled ==>
              && (r == Renewed <==> net.control(src.torControlPort) == NewCircuit)
              && (net.control(src.torControlPort).ControlFailure? ==>
                    r == RenewalFailed(net.control(src.torControlPort).reason))
    ensures r == Renewed ==> net.control(src.torControlPort) == NewCircuit
  {
    if !src.OnionAllowlist? || !src.renewCircuit then NotRequested
    else if !net.stemInstalled then StemMissing
    else
      match net.control(src.torControlPort)
      case NewCircuit => Renewed
      case ControlFailure(reason) => RenewalFailed(reason)
  }

  predicate HasLink(e: FeedEntry) {
    e.link.Some? && e.link.value != ""
  }

  /** `desc or title or ""`. */
  function EntryText(e: FeedEntry): string {
    var desc := e.description.GetOr("");
    if desc != "" then desc
    else if e.title.Some? && e.title.value != "" then e.title.value
    else ""
  }

  function EntryItem(feedUrl: string, e: FeedEntry): Item
    requires e.link.Some?
  {
    Item(e.link.value, e.title, EntryText(e), map["feed" := Json.Str(feedUrl)])
  }

  /** The loop of RssSource.fetch over the parsed entries. */
  function FeedItems(feedUrl: string, entries: seq<FeedEntry>): (items: seq<Item>)
    ensures |items| <= |entries|
    ensures forall it :: it in items ==> it.origin != "" && it.extra == map["feed" := Json.Str(feedUrl)]
  {
    if entries == [] then []
    else
      var e := entries[0];
      (if HasLink(e) then [EntryItem(feedUrl, e)] else []) + FeedItems(feedUrl, entries[1..])
  }

  /** The feed items are, in order, one item per entry that has a link. */
  lemma {:induction false} FeedItemsAreLinkedEntries(feedUrl: string, entries: seq<FeedEntry>)
    ensures var kept := Seqs.Filter(entries, HasLink);
            && |FeedItems(feedUrl, entries)| == |kept|
            && forall i :: 0 <= i < |kept| ==>
                 var e := kept[i];
                 && HasLink(e)
                 && FeedItems(feedUrl, entries)[i] == EntryItem(feedUrl, e)
                 && FeedItems(feedUrl, entries)[i].origin == e.link.value
                 && FeedItems(feedUrl, entries)[i].title == e.title
  {
    Seqs.FilterSpec(entries, HasLink);
    if entries != [] {
      FeedItemsAreLinkedEntries(feedUrl, entries[1..]);
      Seqs.FilterSpec(entries[1..], HasLink);
    }
  }

  /** An entry without a link yields nothing. */
  lemma LinklessEntrySkipped(feedUrl: string, before: seq<FeedEntry>, e: FeedEntry, after: seq<FeedEntry>)
    requires !HasLink(e)
    ensures FeedItems(feedUrl, before + [e] + after) == FeedItems(feedUrl, before + after)
  {
    FeedItemsAppend(feedUrl, before + [e], after);
    FeedItemsAppend(feedUrl, before, [e]);
    FeedItemsAppend(feedUrl, before, after);
  }

  lemma {:induction false} FeedItemsAppend(feedUrl: string, a: seq<FeedEntry>, b: seq<FeedEntry>)
    ensures FeedItems(feedUrl, a + b) == FeedItems(feedUrl, a) + FeedItems(feedUrl, b)
  {
    if a != [] {
      assert (a + b)[1..] == a[1..] + b;
      FeedItemsAppend(feedUrl, a[1..], b);
    } else {
      assert a + b == b;
    }
  }

  /** The single item of a page fetch. */
  function PageItem(src: Source, resp: Response): Item
    requires !src.Rss?
  {
    var extra := if src.HttpPage? then map["type" := Json.Str("http")]
                 else map["type" := Json.Str("onion"), "proxy" := Json.Str(src.torSocks5)];
    Item(src.url, resp.pageTitle, resp.pageText, extra)
  }

  datatype FetchOutcome = FetchOutcome(renewal: Renewal, items: Result<seq<Item>, FetchError>)

  /** Source.fetch, fully materialised: circuit renewal first (onion only),
      then one request; a transport failure or an error status yields no
      item at all. */
  function Fetch(src: Source, net: Network): (out: FetchOutcome)
    ensures out.renewal == Renew(src, net)
    ensures net.get(RequestOf(src)).Err? ==> out.items.Err? && out.items.error.TransportFailure?
    ensures net.get(RequestOf(src)).Ok? && IsHttpError(net.get(RequestOf(src)).value.status) ==>
              out.items == Err(HttpStatusError(net.get(RequestOf(src)).value.status))
    ensures out.items.Ok? ==> net.get(RequestOf(src)).Ok? && !IsHttpError(net.get(RequestOf(src)).value.status)
    ensures out.items.Ok? && src.Rss? ==>
              out.items.value == FeedItems(src.url, net.get(RequestOf(src)).value.entries)
    ensures out.items.Ok? && !src.Rss? ==>
              var resp := net.get(RequestOf(src)).value;
              && |out.items.value| == 1
              && out.items.value[0].origin == src.url
              && out.items.value[0].title == resp.pageTitle
              && out.items.value[0].text == resp.pageText
    ensures out.items.Ok? && src.HttpPage? ==> out.items.value[0].extra == map["type" := Json.Str("http")]
    ensures out.items.Ok? && src.OnionAllowlist? ==>
              out.items.value[0].extra == map["type" := Json.Str("onion"), "proxy" := Json.Str(src.torSocks5)]
  {
    var renewal := Renew(src, net);
    var items :=
      match net.get(RequestOf(src))
      case Err(reason) => Err(TransportFailure(reason))
      case Ok(resp) =>
        if IsHttpError(resp.status) then Err(HttpStatusError(resp.status))
        else if src.Rss? then Ok(FeedItems(src.url, resp.entries))
        else Ok([PageItem(src, resp)]);
    FetchOutcome(renewal, items)
  }

  /** RssSource.fetch: one plain request for the feed URL; a transport
      failure or an error status ends the fetch, otherwise the feed's
      linked entries are the items. No circuit renewal is involved. */
  lemma RssFetch(src: Source, net: Network)
    requires src.Rss?
    ensures RequestOf(src) == Request(src.url, map[], src.timeout)
    ensures Fetch(src, net).renewal == NotRequested
    ensures var resp := net.get(RequestOf(src));
            var out := Fetch(src, net).items;
            && (resp.Err? ==> out == Err(TransportFailure(resp.error)))
            && (resp.Ok? && IsHttpError(resp.value.status) ==> out == Err(HttpStatusError(resp.value.status)))
            && (resp.Ok? && !IsHttpError(resp.value.status) ==> out == Ok(FeedItems(src.url, resp.value.entries)))
  {
  }

  /** HttpSource.fetch: one plain request for the page URL; a transport
      failure or an error status ends the fetch, otherwise the page is a
      single item with the URL as origin, tagged as an HTTP page. */
  lemma HttpFetch(src: Source, net: Network)
    requires src.HttpPage?
    ensures RequestOf(src) == Request(src.url, map[], src.timeout)
    ensures Fetch(src, net).renewal == NotRequested
    ensures var resp := net.get(RequestOf(src));
            var out := Fetch(src, net).items;
            && (resp.Err? ==> out == Err(TransportFailure(resp.error)))
            && (resp.Ok? && IsHttpError(resp.value.status) ==> out == Err(HttpStatusError(resp.value.status)))
            && (resp.Ok? && !IsHttpError(resp.value.status) ==>
                  out == Ok([Item(src.url, resp.value.pageTitle, resp.value.pageText,
                                  map["type" := Json.Str("http")])]))
  {
  }

  /** Circuit renewal never decides the fetch: whatever the control library
      and control port do, the items are the same. */
  lemma RenewalNeverAbortsFetch(src: Source, net: Network, stem: bool, control: int -> ControlOutcome)
    ensures Fetch(src, net).items == Fetch(src, net.(stemInstalled := stem, control := control)).items
  {
  }
}

=== FILE: text.dfy ===
/** Text utilities of the matcher (osinttool/utils/text.py): normalisation,
    keyword and pattern matching, bounded snippets. */
module Text {
  import opened Wrappers
  import Seqs

  /** The characters Python's argument-less `str.strip()` removes
      (`str.isspace()` characters). */
  predicate IsSpace(c: char) {
    || c == ' '
    || ('\t' <= c <= '\r')
    || ('\U{1c}' <= c <= '\U{1f}')
    || c == '\U{85}' || c == '\U{a0}' || c == '\U{1680}'
    || ('\U{2000}' <= c <= '\U{200a}')
    || c == '\U{2028}' || c == '\U{2029}' || c == '\U{202f}' || c == '\U{205f}' || c == '\U{3000}'
  }

  /** Number of leading whitespace characters of `s`. */
  function SpanStart(s: string): (k: nat)
    ensures k <= |s|
    ensures forall i :: 0 <= i < k ==> IsSpace(s[i])
    ensures k == |s| || !IsSpace(s[k])
  {
    if s == [] || !IsSpace(s[0]) then 0 else 1 + SpanStart(s[1..])
  }

  /** Position just after the last non-whitespace character of `s`. */
  function SpanEnd(s: string): (k: nat)
    ensures k <= |s|
    ensures forall i :: k <= i < |s| ==> IsSpace(s[i])
    ensures k == 0 || !IsSpace(s[k - 1])
  {
    if s == [] || !IsSpace(s[|s| - 1]) then |s| else SpanEnd(s[..|s| - 1])
  }

  /** Python's `s.strip()`: the slice of `s` left after removing every
      leading and trailing whitespace character. */
  function Strip(s: string): (r: string)
    ensures r == [] || (!IsSpace(r[0]) && !IsSpace(r[|r| - 1]))
    ensures forall c :: c in r ==> c in s
    ensures exists i, j :: 0 <= i <= j <= |s| && r == s[i..j]
              && (forall k :: 0 <= k < i ==> IsSpace(s[k]))
              && (forall k :: j <= k < |s| ==> IsSpace(s[k]))
  {
    var i := SpanStart(s);
    if i == |s| then
      assert forall k :: 0 <= k < |s| ==> IsSpace(s[k]);
      s[|s|..|s|]
    else
      var j := SpanEnd(s);
      s[i..j]
  }

  lemma SpanStartIs(s: string, k: nat)
    requires k < |s| && !IsSpace(s[k])
    requires forall i :: 0 <= i < k ==> IsSpace(s[i])
    ensures SpanStart(s) == k
  {
  }

  lemma SpanEndIs(s: string, k: nat)
    requires 0 < k <= |s| && !IsSpace(s[k - 1])
    requires forall i :: k <= i < |s| ==> IsSpace(s[i])
    ensures SpanEnd(s) == k
  {
  }

  /** Stripping removes exactly the whitespace framing a text that starts
      and ends with non-whitespace. */
  lemma StripFramed(pre: string, core: string, post: string)
    requires forall c :: c in pre ==> IsSpace(c)
    requires forall c :: c in post ==> IsSpace(c)
    requires core != [] && !IsSpace(core[0]) && !IsSpace(core[|core| - 1])
    ensures Strip(pre + core + post) == core
  {
    var s := pre + core + post;
    assert forall i :: 0 <= i < |pre| ==> s[i] == pre[i];
    assert forall i :: |pre| + |core| <= i < |s| ==> s[i] == post[i - |pre| - |core|];
    SpanStartIs(s, |pre|);
    SpanEndIs(s, |pre| + |core|);
    assert s[|pre|..|pre| + |core|] == core;
  }

  /** Python's `s.replace("\x00", "")`. */
  function RemoveNul(s: string): string {
    Seqs.Filter(s, (c: char) => c != '\0')
  }

  /** normalize_text: `None` (or `""`) becomes `""`, NUL characters are
      removed and surrounding whitespace stripped. */
  function NormalizeText(s: Option<string>): (r: string)
    ensures s.None? ==> r == ""
    ensures '\0' !in r
    ensures r == [] || (!IsSpace(r[0]) && !IsSpace(r[|r| - 1]))
    ensures var t := RemoveNul(s.GetOr(""));
            exists i, j :: 0 <= i <= j <= |t| && r == t[i..j]
              && (forall k :: 0 <= k < i ==> IsSpace(t[k]))
              && (forall k :: j <= k < |t| ==> IsSpace(t[k]))
  {
    var t := RemoveNul(s.GetOr(""));
    Seqs.FilterSpec(s.GetOr(""), (c: char) => c != '\0');
    Strip(t)
  }

  /** Normalising twice is the same as normalising once. */
  lemma NormalizeIdempotent(s: Option<string>)
    ensures NormalizeText(Some(NormalizeText(s))) == NormalizeText(s)
  {
    var r := NormalizeText(s);
    RemoveNulIdentity(r);
    assert SpanStart(r) == 0;
    assert SpanEnd(r) == |r|;
  }

  lemma {:induction false} RemoveNulIdentity(s: string)
    requires '\0' !in s
    ensures RemoveNul(s) == s
  {
    if s != [] {
      RemoveNulIdentity(s[1..]);
      assert s == [s[0]] + s[1..];
    }
  }

  /** ASCII lower-casing, standing for Python's `str.lower()`. */
  function LowerChar(c: char): char {
    if 'A' <= c <= 'Z' then (c as int + 32) as char else c
  }

  function Lower(s: string): (r: string)
    ensures |r| == |s|
  {
    seq(|s|, i requires 0 <= i < |s| => LowerChar(s[i]))
  }

  /** Python's `sub in text`. */
  predicate IsSubstring(sub: string, text: string) {
    exists i :: 0 <= i <= |text| - |sub| && OccursAt(sub, text, i)
  }

  predicate OccursAt(sub: string, text: string, i: int)
    requires 0 <= i <= |text| - |sub|
  {
    text[i..i + |sub|] == sub
  }

  /** Outcome of `re.search(pattern, text)`: a pattern that does not compile
      raises `re.error`. */
  datatype SearchOutcome = InvalidPattern | Found | NotFound

  /** The regular-expression engine, outside this model. */
  type Search = (string, string) -> SearchOutcome

  /** A keyword hits when it is non-empty and, lower-cased, occurs in the
      lower-cased text. */
  predicate KeywordHit(text: string, kw: string) {
    kw != "" && IsSubstring(Lower(kw), Lower(text))
  }

  /** A pattern hits when it is non-empty, compiles, and matches somewhere
      in the unmodified text. */
  predicate PatternHit(search: Search, text: string, rx: string) {
    rx != "" && search(rx, text) == Found
  }

  datatype Matches = Matches(keywords: seq<string>, patterns: seq<string>)

  /** find_matches: keyword hits and pattern hits, each in input order
      with duplicates kept. */
  function FindMatches(text: string, keywords: seq<string>, patterns: seq<string>, search: Search): (m: Matches)
    ensures Seqs.IsSubsequence(m.keywords, keywords)
    ensures forall kw :: multiset(m.keywords)[kw] == if KeywordHit(text, kw) then multiset(keywords)[kw] else 0
    ensures Seqs.IsSubsequence(m.patterns, patterns)
    ensures forall rx :: multiset(m.patterns)[rx] == if PatternHit(search, text, rx) then multiset(patterns)[rx] else 0
    ensures "" !in m.keywords && "" !in m.patterns
  {
    Seqs.FilterSpec(keywords, kw => KeywordHit(text, kw));
    Seqs.FilterSpec(patterns, rx => PatternHit(search, text, rx));
    Matches(Seqs.Filter(keywords, kw => KeywordHit(text, kw)),
            Seqs.Filter(patterns, rx => PatternHit(search, text, rx)))
  }

  /** An invalid pattern is skipped: removing it from the pattern list
      changes nothing, whatever its neighbours. */
  lemma InvalidPatternSkipped(text: string, keywords: seq<string>, before: seq<string>, bad: string,
                              after: seq<string>, search: Search)
    requires search(bad, text) == InvalidPattern
    ensures FindMatches(text, keywords, before + [bad] + after, search)
         == FindMatches(text, keywords, before + after, search)
  {
    Seqs.FilterSkipsRejected(before, bad, after, rx => PatternHit(search, text, rx));
  }

  /** Matching is case-insensitive and keeps input order: of "exploit" and
      "backdoor", only "exploit" hits "Exploit detected in CVE". */
  lemma KeywordExample(search: Search)
    ensures FindMatches("Exploit detected in CVE", ["exploit", "backdoor"], [], search)
         == Matches(["exploit"], [])
  {
    var text := "Exploit detected in CVE";
    ExampleHits(text);
    var p := kw => KeywordHit(text, kw);
    assert p("exploit") && !p("backdoor");
    assert Seqs.Filter(["backdoor"], p) == [];
    assert Seqs.Filter(["exploit", "backdoor"], p) == ["exploit"];
  }

  lemma ExampleHits(text: string)
    requires text == "Exploit detected in CVE"
    ensures KeywordHit(text, "exploit") && !KeywordHit(text, "backdoor")
  {
    var lt := Lower(text);
    assert lt[..7] == "exploit" by {
      forall k | 0 <= k < 7 ensures lt[k] == "exploit"[k] { }
    }
    assert OccursAt(Lower("exploit"), lt, 0) by {
      assert Lower("exploit") == "exploit";
    }
    assert 'b' !in lt by {
      forall k | 0 <= k < |lt| ensures lt[k] != 'b' { }
    }
    var b := Lower("backdoor");
    assert b[0] == 'b';
    forall i | 0 <= i <= |lt| - |b| ensures !OccursAt(b, lt, i) {
      assert lt[i..i + |b|][0] == lt[i];
    }
  }

  const Ellipsis: string := "..."

  /** Python's `s[:k]` for any integer `k` (a negative `k` counts from the end). */
  function PrefixSlice(s: string, k: int): (r: string)
    ensures r <= s
    ensures k >= 0 ==> |r| == if k <= |s| then k else |s|
    ensures k < 0 ==> |r| == if |s| + k >= 0 then |s| + k else 0
  {
    if k >= 0 then s[..if k <= |s| then k else |s|]
    else s[..if |s| + k >= 0 then |s| + k else 0]
  }

  /** make_snippet: the normalised text when it fits in `maxChars`,
      otherwise its first `maxChars - 3` characters followed by "...". */
  function MakeSnippet(text: string, maxChars: int): (r: string)
    ensures |NormalizeText(Some(text))| <= maxChars ==> r == NormalizeText(Some(text))
    ensures maxChars >= 3 && |NormalizeText(Some(text))| > maxChars ==>
              r == NormalizeText(Some(text))[..maxChars - 3] + Ellipsis && |r| == maxChars
    ensures maxChars >= 3 ==> |r| <= maxChars
    ensures '\0' !in r
  {
    var t := NormalizeText(Some(text));
    if |t| <= maxChars then t else PrefixSlice(t, maxChars - 3) + Ellipsis
  }

  /** Below three characters the bound does not hold: a text that does not
      fit produces a snippet longer than `maxChars`. */
  lemma SnippetOverrunsBelowThree(text: string, maxChars: int)
    requires maxChars < 3 && |NormalizeText(Some(text))| > maxChars
    ensures |MakeSnippet(text, maxChars)| > maxChars
  {
  }

  /** A concrete instance: a zero budget still yields "a...". */
  lemma SnippetZeroBudgetExample()
    ensures MakeSnippet("abcd", 0) == "a..."
  {
    var t := NormalizeText(Some("abcd"));
    assert RemoveNul("abcd") == "abcd" by { RemoveNulIdentity("abcd"); }
    assert SpanStart("abcd") == 0;
    assert SpanEnd("abcd") == 4;
    assert t == "abcd";
  }
}

=== FILE: wrappers.dfy ===
/** Optional values and results used across the model: `Option` stands for
    Python's `None`-or-value, `Result` for a value-or-raised-exception. */
module Wrappers {

  datatype Option<+T> = None | Some(value: T) {

    /** The value, or `default` when absent (Python's `x if x is not None else default`). */
    function GetOr(default: T): T {
      match this
      case Some(v) => v
      case None => default
    }
  }

  datatype Result<+T, +E> = Ok(value: T) | Err(error: E)
}
